=== FILE: README.md ===
# Mini-ERP order and catalogue core, in Dafny

This project models the business core of a small desktop ERP (Java, Swing,
JDBC). The parts modelled are:

- **Order service**: placing an order, deleting one and reading one back.
  Placing an order validates the purchaser and every cart line against the
  current stock. It then saves the header as PENDING, saves the lines at the
  prices captured during validation, decrements the stock, and marks the
  order PROCESSING.
- **UUID codec**: packs a UUID into the 16 big-endian bytes stored in the
  database, and unpacks it again.
- **Order panel cart rules**: adding a product to the cart (merging it with an
  existing line), the running total, clearing the cart, and handing it to the
  order service.
- **Inventory controller**: the partial price and quantity update.
- **Product, category and user services**: their guard chains.

## Data and conventions

- Each service is a pure function from its repository state and its
  arguments to a result and a new state.
- A Java reference that may be null is an `Option`.
- A call that may throw returns a `Result`. `Error` names the exception:
  - `IllegalArgument(reason)`;
  - `InvalidCredentials`, the `SecurityException` of login;
  - `Runtime(reason)`;
  - `Wrapped(e)`, a `RuntimeException` that wraps a caught exception `e`.
- The order service's four repositories are maps keyed by UUID. A `Store`
  holds the user ids, product price and stock, order headers, and order lines.
- The product, category and user repositories are sequences of rows.
  - A single-row query returns the first matching row (`Tables.FirstWhere`).
  - An UPDATE rewrites every matching row.
  - A DELETE removes every matching row.
- Ids the code draws from `UUID.randomUUID()`, or that a repository assigns,
  are parameters (`freshId`) that must not already be in use.
- Prices are integers in cents. Quantities are unbounded integers, except
  where Java `int` arithmetic matters: the cart's merge sum and the stock
  change `qty * -1` of `placeOrder`, both via `JavaInt.Wrap32`.
- `String.trim()` drops the characters at or below U+0020 from both ends,
  exactly as Java does. `toLowerCase()` is modelled on ASCII letters only.
- Password hashing and verification are function parameters.

Properties proved, beyond each operation's own contract:

- Reading back a placed order gives its header (PROCESSING) and the cart's
  lines at the captured prices.
- Deleting a placed order restores the order and line repositories exactly,
  and the stock decrements remain. Deletion is final.
- Products no cart line names keep their stock. A cart of distinct products
  with no line of `INT_MIN` units never drives a product with non-negative
  stock negative.
- A cart with a repeated product can oversell. This is shown on a concrete
  store.
- Every cart built with the merge sum computed exactly (the corrected rule of
  "## Findings") satisfies the cart invariant: distinct products, each
  quantity positive and within stock. `placeOrder` accepts such a cart and
  leaves no negative stock.
- While no stock exceeds `INT_MAX / 2`, the panel as written builds exactly
  those carts, so its carts are placed safely too.
- The UUID codec round-trips in both directions, and decoding ignores bytes
  after the sixteenth.
- Name normalisation yields a stored-form name and is idempotent.
- Creating and updating keep names, usernames and ids unique. A created record
  is found again by its id (and a category or user by its name), and a created
  user can log in.
- Deleting a category never leaves a product pointing at a missing category.

Behaviour of the code that the model keeps:

- `placeOrder` does not check that line quantities are positive or that the
  products are distinct. It checks each line against the stock on its own.
  - A repeated product can oversell: `Orders.DuplicateLinesOversell`.
  - A negative quantity raises the stock: `Orders.NegativeLineRaisesStock`.
  - A line of `INT_MIN` units lowers the stock by 2^31, because `qty * -1`
    overflows back to `INT_MIN`: `Orders.IntMinLineLowersStock`.
  - The order panel merges lines and refuses non-positive quantities. Carts
    built with the merge sum computed exactly are placed safely
    (`Cart.BuiltCartPlacesSafely`). The panel as written is safe only while no
    stock exceeds `INT_MAX / 2` (`Cart.AsWrittenCartPlacesSafely`); above that
    its merge sum can overflow, see "## Findings".
- The write phase of `placeOrder` is four separate repository calls. The model
  lists the states they pass through: `Orders.WritePhaseOrder`.
- Every validation failure is an `IllegalArgumentException`, whatever its
  cause. The model keeps that, with the reason as data.
- The product UPDATE writes only price and quantity, and the user UPDATE only
  password and role. An update never renames a product, moves it to another
  category, or renames a user.
- Deleting a category that products still reference violates the foreign key.
  The category repository catches that error and only reports it, so the
  service returns normally and the category stays.

## Model

| member | source | states |
|---|---|---|
| `Orders.ValidateLines` | src/main/java/service/OrderService.java:72-89 | the cart passes iff every line's product exists with at least the requested stock; on success each line carries its product's current price; on failure the error is the one for the first failing line |
| `Orders.Decrement` | src/main/java/service/OrderService.java:101-103 | the stock loop keeps the product keys, keeps prices, and lowers every product's stock by what the lines' stock changes take from it: the requested quantity, except 2^31 for a line of `INT_MIN` units, whose change `qty * -1` overflows |
| `Orders.StockChange` | src/main/java/service/OrderService.java:102 | the change `qty * -1` in Java `int` arithmetic: `-q` for every `int` except `INT_MIN`, and `INT_MIN` for `INT_MIN`; always an `int` |
| `Orders.PlaceOrder` | src/main/java/service/OrderService.java:61-115 | null user, null or empty cart fail with the missing-input error, an unknown user with user-not-found, otherwise the first failing line decides; success iff all guards pass; a failure writes nothing; success returns the new order id with header PROCESSING, lines appended at captured prices, stock lowered by demand, nothing else changed |
| `Orders.WritePhasePlaces` | src/main/java/service/OrderService.java:91-106 | running the four writes (save header, save lines, decrement stock, mark PROCESSING) on priced lines yields exactly the placement described above |
| `Orders.WritePhaseOrder` | src/main/java/service/OrderService.java:91-106 | the intermediate stores of the write phase: header PENDING with no lines, then the lines, then the stock decrement, and only at the end PROCESSING |
| `Orders.UntouchedProductsUnchanged` | src/main/java/service/OrderService.java:101-103 | a successful placement leaves every product that no cart line names with exactly its old price and stock |
| `Orders.DistinctCartKeepsStock` | src/main/java/service/OrderService.java:72-103 | when the cart's products are distinct and no line holds `INT_MIN` units, the per-line stock check suffices: a product with non-negative stock does not end negative, whatever stock the other products hold |
| `Orders.DuplicateLinesOversell` | src/main/java/service/OrderService.java:72-103 | two lines of one unit for a product with one unit in stock are both accepted and the stock ends at -1 |
| `Orders.NegativeLineRaisesStock` | src/main/java/service/OrderService.java:81-102 | a line of -5 units for a product with one unit in stock is accepted and the stock ends at 6 |
| `Orders.IntMinLineLowersStock` | src/main/java/service/OrderService.java:81-102 | a line of `INT_MIN` units for a product with `INT_MAX` in stock is accepted, and because `INT_MIN * -1` overflows to `INT_MIN` the stock ends at -1 |
| `Orders.DeleteOrder` | src/main/java/service/OrderService.java:42-59 | a null id or an id with no header fails and changes nothing; otherwise exactly that order's header and lines are removed; stock and users are untouched |
| `Orders.FindOrderById` | src/main/java/service/OrderService.java:31-40 | a null id fails; otherwise the order is found iff its header exists, and comes with its lines |
| `Orders.FindAfterPlace` | src/main/java/service/OrderService.java:61-115 | a placed order reads back PROCESSING, owned by the purchaser, with one line per cart line at the price its product had |
| `Orders.DeleteUndoesPlaceExceptStock` | src/main/java/service/OrderService.java:42-59 | deleting a just-placed order restores the order and line repositories and users exactly; the stock decrements stay |
| `Orders.DeleteIsFinal` | src/main/java/service/OrderService.java:42-59 | after a delete the order is not found and a second delete fails with order-not-found |
| `UuidCodec.UuidToBytes` | src/main/java/util/DaoUtil.java:7-17 | null maps to null; otherwise 16 bytes whose first 8 read back as the most significant and last 8 as the least significant half |
| `UuidCodec.BytesToUuid` | src/main/java/util/DaoUtil.java:19-29 | null and arrays shorter than 16 bytes map to null; otherwise the UUID of the two big-endian longs at offsets 0 and 8 |
| `UuidCodec.LongRoundTrip` | src/main/java/util/DaoUtil.java:13-14 | reading back the 8 bytes `putLong` writes gives the same 64-bit value |
| `UuidCodec.BytesRoundTrip` | src/main/java/util/DaoUtil.java:25-26 | writing back the long `getLong` reads gives the same 8 bytes |
| `UuidCodec.UuidRoundTrip` | src/main/java/util/DaoUtil.java:7-29 | decoding an encoded UUID gives the UUID back |
| `UuidCodec.BytesUuidRoundTrip` | src/main/java/util/DaoUtil.java:7-29 | encoding a decoded 16-byte array gives the array back |
| `UuidCodec.DecodeIgnoresTrailing` | src/main/java/util/DaoUtil.java:19-29 | bytes after the sixteenth do not change the decoded UUID |
| `Text.Trim` | src/main/java/service/ProductService.java:38 | the result is empty iff every character is at most U+0020; it is a contiguous piece of the input with only such characters cut off on either side, and it neither starts nor ends with one |
| `Text.NormalizeIsNormal` | src/main/java/service/ProductService.java:32-38 | a name that is not blank normalises to a non-empty, trimmed name with no upper-case ASCII letter |
| `Text.NormalizeIdempotent` | src/main/java/service/CategoryService.java:23-27 | normalising a normalised name changes nothing, for every string, blank ones included |
| `Cart.AddToCart` | src/main/java/ui/OrderPanel.java:161-195 | a non-positive quantity and a quantity above the stock are refused; a product not in the cart is appended at its current price; in a cart of distinct products, an existing line grows by the quantity iff the sum stays within stock, otherwise the add is refused as exceeding stock |
| `Cart.AddToCartAsWritten` | src/main/java/ui/OrderPanel.java:161-195 | the add as written: a non-positive quantity and a quantity above the stock are refused; whenever the merge sum with every line for the product is a Java `int`, the result is exactly that of the exact rule `Cart.AddToCart` |
| `Cart.AddPreservesInvariant` | src/main/java/ui/OrderPanel.java:172-195 | an accepted add keeps products distinct and every quantity positive and within stock |
| `Cart.AddToCartTotal` | src/main/java/ui/OrderPanel.java:370-377 | an accepted add to a product already in the cart raises the cart total by the added quantity times that line's price |
| `Cart.AddNewLineTotal` | src/main/java/ui/OrderPanel.java:370-377 | an accepted add of a product not yet in the cart raises the cart total by the added quantity times its current price |
| `Cart.CartTotal` | src/main/java/ui/OrderPanel.java:370-377 | the grand total of the cart table: a single line gives its quantity times its price, and lines with non-negative quantities and prices give a non-negative total |
| `Cart.ClearCart` | src/main/java/ui/OrderPanel.java:238-241 | the cart is emptied and the redrawn total is zero |
| `Cart.CompleteOrder` | src/main/java/ui/OrderPanel.java:205-241 | an empty cart is refused without touching the store; a failed order keeps store and cart; a placed order clears the cart; for a non-empty cart success iff `placeOrder` admits it |
| `Cart.BuildCartInvariant` | src/main/java/ui/OrderPanel.java:161-195 | every cart built by a series of add requests with the merge sum computed exactly (the corrected rule of "## Findings") satisfies the cart invariant |
| `Cart.BuiltCartPlacesSafely` | src/main/java/ui/OrderPanel.java:205-216 | a non-empty cart built with the exact merge sum from current stock (stock values being Java `int`s), placed for a known user, is accepted and leaves no product with negative stock |
| `Cart.BuildCartAsWrittenAgrees` | src/main/java/ui/OrderPanel.java:176-182 | while no stock exceeds `INT_MAX / 2`, the panel as written builds exactly the carts of the exact rule |
| `Cart.AsWrittenCartPlacesSafely` | src/main/java/ui/OrderPanel.java:205-216 | while no stock exceeds `INT_MAX / 2`, a non-empty cart the panel builds as written, placed for a known user, is accepted and leaves no product with negative stock |
| `Cart.AsWrittenMergeOverflows` | src/main/java/ui/OrderPanel.java:176-182 | with `INT_MAX` units in the cart and in stock, adding one more is accepted as written and the line's quantity wraps to `INT_MIN`, breaking the cart invariant, and the exact rule refuses it; placing that cart is accepted and drives the stock from `INT_MAX` to -1 |
| `Categories.CreateCategory` | src/main/java/service/CategoryService.java:18-40 | null category, null or blank name, and an existing normalised name fail in that order, writing nothing; success iff none of them applies, and then a row with the normalised name is appended |
| `Categories.CreateKeepsNamesUnique` | src/main/java/service/CategoryService.java:27-36 | creating a category keeps category ids and names unique |
| `Categories.GetCategoryById` | src/main/java/service/CategoryService.java:42-52 | a null id fails; otherwise a category is returned iff one has that id, and it has that id |
| `Categories.GetCategoryByName` | src/main/java/service/CategoryService.java:54-64 | only a null name fails; any other string is looked up exactly as given |
| `Categories.DeleteCategory` | src/main/java/service/CategoryService.java:74-84 | a null id fails; otherwise the service returns normally: a category that products reference stays stored, any other loses its rows, every other row stays, and an absent id is no error |
| `Categories.CreatedCategoryIsFound` | src/main/java/service/CategoryService.java:18-64 | a created category is found by its id and by its stored name |
| `Categories.DeletedCategoryIsGone` | src/main/java/service/CategoryService.java:74-84 | after a delete no category with that id is found, unless products reference it, in which case the lookup finds what it found before |
| `Products.DeleteCategoryKeepsReferences` | src/main/java/dao_impl/CategoryDAOImpl.java:127-144 | with the products' category references as the foreign key, deleting a category leaves every product whose category existed pointing at one that still exists |
| `Products.CreateProduct` | src/main/java/service/ProductService.java:27-52 | null product, null or blank name, and an existing normalised name fail in that order, writing nothing; success iff none of them applies, and then a row with the normalised name is appended; price and quantity are not checked |
| `Products.CreateKeepsKeysUnique` | src/main/java/service/ProductService.java:38-48 | creating a product keeps ids and names unique |
| `Products.GetProductById` | src/main/java/service/ProductService.java:54-63 | a null id fails; otherwise a product is returned iff one has that id |
| `Products.CreatedProductIsFound` | src/main/java/service/ProductService.java:27-63 | a created product is returned by a lookup of its new id |
| `Products.UpdateProduct` | src/main/java/service/ProductService.java:66-124 | guards in source order: null product or id, blank name, negative price or quantity, missing target, normalised name held by another product, unknown non-null category; success iff all pass; success writes the submitted price and quantity to exactly the rows with that id, whose stored name and category stay as they were |
| `Products.NameClashMeansOtherOwner` | src/main/java/service/ProductService.java:93-105 | with unique names, the name check rejects exactly a name held by a different product |
| `Products.UpdateKeepsKeysUnique` | src/main/java/service/ProductService.java:66-124 | an update keeps ids and names unique |
| `Products.FindLowStock` | src/main/java/service/ProductService.java:126-137 | a negative threshold fails; otherwise exactly the products with stock below the threshold |
| `Users.CreateUser` | src/main/java/service/UserService.java:19-48 | null user, blank username, password or role, and a taken username fail in that order; success iff none of them applies, and then the user is appended with the hashed password |
| `Users.CreateKeepsKeysUnique` | src/main/java/service/UserService.java:36-44 | creating a user keeps ids and usernames unique |
| `Users.Login` | src/main/java/service/UserService.java:50-68 | a null username, an unknown username and a rejected password fail with the same error; success iff the username is found and the password verifies, returning that stored user |
| `Users.CreatedUserCanLogIn` | src/main/java/service/UserService.java:41-64 | a created user logs in with its own password when verification accepts its hashes |
| `Users.CreatedUserIsFound` | src/main/java/service/UserService.java:19-92 | a created user is returned by a lookup of its new id and by a lookup of its username |
| `Users.GetUserByName` | src/main/java/service/UserService.java:70-80 | a null or blank username fails; otherwise a user is returned iff one has that username |
| `Users.GetUserById` | src/main/java/service/UserService.java:82-92 | a null id fails; otherwise a user is returned iff one has that id |
| `Users.UpdateUser` | src/main/java/service/UserService.java:94-129 | the field checks of create, then a missing target and a username held by another user fail; success iff all pass; success writes the submitted password, as given, and role to exactly the rows with that id, whose stored username stays as it was |
| `Users.UsernameClashMeansOtherOwner` | src/main/java/service/UserService.java:116-122 | with unique usernames, the username check rejects exactly a username held by a different user |
| `Users.UpdateKeepsKeysUnique` | src/main/java/service/UserService.java:94-129 | an update keeps ids and usernames unique |
| `Users.DeleteUser` | src/main/java/service/UserService.java:131-145 | a null id or an unknown id fails and deletes nothing; otherwise the rows with that id are gone and every other row stays |
| `Users.DeletedUserIsGone` | src/main/java/service/UserService.java:131-145 | after a delete the user is not found and a second delete fails with not-found |
| `Inventory.UpdateProductDetails` | src/main/java/controller/InventoryController.java:56-115 | null id and no field given fail unwrapped; every later failure is wrapped; a quantity-only update rejects a negative quantity, sets the stock of that id, and returns the re-read product or a fetch failure; otherwise a missing product fails, and the stored product with the given fields overwritten goes through the full product update |
| `Inventory.Merge` | src/main/java/controller/InventoryController.java:99-105 | the given price and quantity overwrite the stored ones; every other field keeps its stored value |
| `Inventory.SetQuantity` | src/main/java/controller/InventoryController.java:82 | the stock of every row with that id becomes the new quantity; nothing else changes |
| `Inventory.SetQuantityKeepsIds` | src/main/java/controller/InventoryController.java:82-87 | a quantity update keeps the set of ids, so the product re-read afterwards exists iff it existed before |

## Left out

- JDBC, the DAO implementations and SQL are not modelled. Each repository is
  its abstract effect.
- The DAO queries contain misspelled SQL, for example `SELECET` in the
  low-stock query, a second `SET` in the product UPDATE and a missing `=` in
  the user UPDATE. Those queries would raise SQL errors. The model follows the
  query each DAO method is evidently meant to run, on the columns it names.
- The product and user repository interfaces return the updated record, but
  their implementations return nothing. The services' return value is
  modelled as the submitted record (the product with its name normalised).
- SQL exceptions and their `RuntimeException` wrappers in the services are not
  modelled: the repositories never fail. The one failure modelled is the
  category delete's foreign-key violation, which the repository swallows. The inventory controller's own wrap
  of caught exceptions is modelled.
- `InventoryService` is not part of this model because its source is absent.
  - Its `getProductById` and `updateProduct` are taken to be those of the
    product service.
  - Its `updateProductQuantity` is taken to set the stock of the rows with that
    id (`Inventory.SetQuantity`).
- `Inventory.SetQuantity`: states the assumed effect of the missing service
  method, not a promise of the source.
- `placeOrder` sets each caller-supplied cart item's captured price and order
  id in place, even when a later line fails. The model returns new priced
  lines and leaves the caller's cart unchanged.
- `Cart.CompleteOrder`: a failed order keeps the cart's lines and quantities,
  but as written the lines validated before the failing one already carry the
  new captured price and order id; the model keeps the cart exactly as it was.
- `Products.UpdateProduct`: the service normalises the caller's product name
  in place before its guards, so even a refused update leaves the caller's
  object renamed. The model does not mutate its input.
- Product ids in `placeOrder` are looked up exactly as given. The per-item
  `UUID.randomUUID()` that is then overwritten has no effect, and is left out.
- `orderItemDAO.saveAll` writes every line. A partial batch write is not
  modelled. Nor are failures between the writes of the write phase;
  `Orders.WritePhaseOrder` lists the states such a failure would leave.
- The `long` sum of the cart total is an unbounded integer here. Java overflow
  of it needs a total beyond 2^63 cents.
- The status PENDING of a newly saved order: the service builds the order as
  PENDING, but the repository's INSERT writes only the order and user ids. The
  stored status rests on a column default the repository does not show; the
  model takes it to be PENDING.
- `ProductDAO.updateStock` has no implementation in the repository. The stock
  change it receives is taken to be added to the stored stock.
- `Text.ToLower`: covers ASCII letters only. Java's `toLowerCase()` also maps
  non-ASCII letters by the default locale.
- Password hashing (`SecurityUtil`) is not part of this model. Hashing and
  verification are parameters. `updateUser` stores the submitted password
  without hashing it, and the model does the same.
- `getCategoryById` is declared `static` but reads an instance field, which
  Java rejects. It is modelled as the instance method it is evidently meant
  to be.
- Records are created under a fresh id, which is a parameter. A caller that
  supplies an id already in use is not modelled.
- Listing operations (`getAllCategories` and the panels' table loading),
  receipt printing and logging, the Swing dialogs and the session are not
  modelled. The signed-in user is a parameter of `Cart.CompleteOrder`.
- The quantity a user types is parsed by `Integer.parseInt`. Text that is not
  a number is rejected like a non-positive quantity. The model starts from the
  parsed `int`.
- Concurrency is not modelled. Every operation is one atomic step on one
  store.

## Findings

| source | as written | input that shows it | evidently intended | confidence | as-written member | corrected member |
|---|---|---|---|---|---|---|
| src/main/java/ui/OrderPanel.java:176-182 | the merged quantity `cartItem.getQuantity() + quantity` is a Java `int` sum, checked against the stock and stored | a product with `2147483647` units in stock, already in the cart with `2147483647` units, then one more unit added: the sum wraps to `-2147483648`, passes the check and is stored; placing that cart is accepted too, and its stock change `-2147483648 * -1` also wraps, so the stock falls from `2147483647` to -1 | the add is refused as exceeding the stock, so every cart line keeps a positive quantity within stock | not executed | `Cart.AsWrittenMergeOverflows` | `Cart.AddPreservesInvariant` |

=== FILE: cart.dfy ===
/**
 * The point-of-sale cart of the order panel: adding a product with a
 * quantity (merging with an existing line for that product), the running
 * total, clearing, and handing the cart to the order service.
 */
module Cart {
  import opened Outcomes
  import opened UuidCodec
  import opened Tables
  import opened Orders
  import opened JavaInt

  /** Why the panel refused a request; each is a message dialog and the cart is left as it was. */
  datatype Refusal =
    | InvalidQuantity                // not a positive number
    | OutOfStock(available: int)      // more than the product has in stock
    | ExceedsStock                   // existing line plus the new quantity exceeds the stock
    | EmptyCart                      // "Complete Order" with nothing in the cart

  /** Matches the cart lines for product `id`. */
  function SameProduct(id: Uuid): Line -> bool {
    (l: Line) => l.product == id
  }

  /**
   * The add-to-cart rule with the quantity addition as a parameter, so that
   * the same rule can be read with Java `int` addition and with exact
   * addition. `snap` is the selected product's row as the panel loaded it.
   */
  function AddWith(cart: seq<Line>, id: Uuid, snap: Stock, q: int, plus: (int, int) -> int): Result<seq<Line>, Refusal> {
    if q <= 0 then Fail(InvalidQuantity)
    else if q > snap.qty then Fail(OutOfStock(snap.qty))
    else match IndexWhere(cart, SameProduct(id))
      case Some(i) =>
        if plus(cart[i].qty, q) > snap.qty then Fail(ExceedsStock)
        else Ok(cart[i := cart[i].(qty := plus(cart[i].qty, q))])
      case None =>
        Ok(cart + [Line(id, snap.price, q)])
  }

  /**
   * `addToCartAction` as written: the combined quantity `existing + q` is a
   * Java `int` sum, so it wraps when it passes `INT_MAX`. Whenever the sum
   * with the line it merges into stays an `int`, it is the exact rule.
   */
  function AddToCartAsWritten(cart: seq<Line>, id: Uuid, snap: Stock, q: int): (r: Result<seq<Line>, Refusal>)
    ensures q <= 0 ==> r == Fail(InvalidQuantity)
    ensures 0 < q && q > snap.qty ==> r == Fail(OutOfStock(snap.qty))
    ensures (forall j :: 0 <= j < |cart| && cart[j].product == id ==> IsInt(cart[j].qty + q)) ==>
      r == AddToCart(cart, id, snap, q)
  {
    AddWith(cart, id, snap, q, (a, b) => Wrap32(a + b))
  }

  /** No two cart lines name one product, and each line's quantity is positive and within its product's stock. */
  predicate CartInvariant(cart: seq<Line>, catalog: map<Uuid, Stock>) {
    && DistinctProducts(cart)
    && forall i :: 0 <= i < |cart| ==>
         cart[i].product in catalog && 0 < cart[i].qty <= catalog[cart[i].product].qty
  }

  /**
   * `addToCartAction` with the combined quantity computed exactly: the
   * quantity must be positive and within the stock; a product already in the
   * cart has its line grown, provided the combined quantity stays within the
   * stock; any other product gets a new line at its current price.
   */
  function AddToCart(cart: seq<Line>, id: Uuid, snap: Stock, q: int): (r: Result<seq<Line>, Refusal>)
    ensures q <= 0 ==> r == Fail(InvalidQuantity)
    ensures 0 < q && q > snap.qty ==> r == Fail(OutOfStock(snap.qty))
    ensures r.Ok? ==> 0 < q <= snap.qty
    ensures (forall j :: 0 <= j < |cart| ==> cart[j].product != id) ==>
      (0 < q <= snap.qty ==> r == Ok(cart + [Line(id, snap.price, q)]))
    ensures DistinctProducts(cart) && 0 < q <= snap.qty ==>
      forall j :: 0 <= j < |cart| && cart[j].product == id ==>
        && (r.Ok? <==> cart[j].qty + q <= snap.qty)
        && (r.Fail? ==> r.error == ExceedsStock)
        && (r.Ok? ==> r.value == cart[j := cart[j].(qty := cart[j].qty + q)])
  {
    OnlyLineIsFirst(cart, id);
    AddWith(cart, id, snap, q, (a, b) => a + b)
  }

  /** In a cart of distinct products, the line for `id` is the first match the merge loop finds. */
  lemma OnlyLineIsFirst(cart: seq<Line>, id: Uuid)
    ensures DistinctProducts(cart) ==>
      forall j :: 0 <= j < |cart| && cart[j].product == id ==> IndexWhere(cart, SameProduct(id)) == Some(j)
  {
    if DistinctProducts(cart) {
      forall j | 0 <= j < |cart| && cart[j].product == id
        ensures IndexWhere(cart, SameProduct(id)) == Some(j)
      {
        var k := IndexWhere(cart, SameProduct(id));
        assert k.Some?;
        assert !(k.value < j) && !(j < k.value);
      }
    }
  }

  /** A successful add keeps the cart invariant, for the stock snapshot the product was picked from. */
  lemma AddPreservesInvariant(cart: seq<Line>, catalog: map<Uuid, Stock>, id: Uuid, q: int)
    requires CartInvariant(cart, catalog) && id in catalog
    requires AddToCart(cart, id, catalog[id], q).Ok?
    ensures CartInvariant(AddToCart(cart, id, catalog[id], q).value, catalog)
  {
    var r := AddToCart(cart, id, catalog[id], q).value;
    if j :| 0 <= j < |cart| && cart[j].product == id {
      assert r == cart[j := cart[j].(qty := cart[j].qty + q)];
      assert forall i :: 0 <= i < |r| ==> r[i].product == cart[i].product;
    } else {
      assert r == cart + [Line(id, catalog[id].price, q)];
    }
  }

  /** The panel's handling of an add: the new cart, or the old one when the add was refused. */
  function ApplyAdd(cart: seq<Line>, id: Uuid, snap: Stock, q: int): seq<Line> {
    match AddToCart(cart, id, snap, q)
    case Ok(c) => c
    case Fail(_) => cart
  }

  /** The same handling with the merge sum as written, in Java `int` arithmetic. */
  function ApplyAddAsWritten(cart: seq<Line>, id: Uuid, snap: Stock, q: int): seq<Line> {
    match AddToCartAsWritten(cart, id, snap, q)
    case Ok(c) => c
    case Fail(_) => cart
  }

  /**
   * `updateCartTable`: the grand total, the sum over lines of quantity times
   * price at order (cents). Lines of non-negative quantity and price give a
   * non-negative total, and a single line gives its own amount.
   */
  function CartTotal(cart: seq<Line>): (r: int)
    ensures |cart| == 1 ==> r == cart[0].qty * cart[0].price
    ensures (forall i :: 0 <= i < |cart| ==> cart[i].qty >= 0 && cart[i].price >= 0) ==> r >= 0
  {
    if cart == [] then 0
    else CartTotal(cart[..|cart| - 1]) + cart[|cart| - 1].qty * cart[|cart| - 1].price
  }

  /** Replacing one line changes the total by the difference of that line's amounts. */
  lemma {:induction false} CartTotalUpdate(cart: seq<Line>, i: nat, l: Line)
    requires i < |cart|
    ensures CartTotal(cart[i := l]) == CartTotal(cart) - cart[i].qty * cart[i].price + l.qty * l.price
  {
    var n := |cart| - 1;
    if i < n {
      CartTotalUpdate(cart[..n], i, l);
      assert cart[i := l][..n] == cart[..n][i := l];
    } else {
      assert cart[i := l][..n] == cart[..n];
    }
  }

  /** An accepted add to a product already in the cart raises the total by the added quantity times that line's price. */
  lemma AddToCartTotal(cart: seq<Line>, id: Uuid, snap: Stock, q: int, j: nat)
    requires DistinctProducts(cart)
    requires j < |cart| && cart[j].product == id
    requires AddToCart(cart, id, snap, q).Ok?
    ensures CartTotal(AddToCart(cart, id, snap, q).value) == CartTotal(cart) + q * cart[j].price
  {
    MergedTotal(cart, j, q);
  }

  /** An accepted add of a product not yet in the cart raises the total by the added quantity times its current price. */
  lemma AddNewLineTotal(cart: seq<Line>, id: Uuid, snap: Stock, q: int)
    requires forall j :: 0 <= j < |cart| ==> cart[j].product != id
    requires AddToCart(cart, id, snap, q).Ok?
    ensures CartTotal(AddToCart(cart, id, snap, q).value) == CartTotal(cart) + q * snap.price
  {
    AppendedTotal(cart, Line(id, snap.price, q));
  }

  /** Growing line `j` by `q` units raises the total by `q` times that line's price. */
  lemma MergedTotal(cart: seq<Line>, j: nat, q: int)
    requires j < |cart|
    ensures CartTotal(cart[j := cart[j].(qty := cart[j].qty + q)]) == CartTotal(cart) + q * cart[j].price
  {
    CartTotalUpdate(cart, j, cart[j].(qty := cart[j].qty + q));
    assert (cart[j].qty + q) * cart[j].price == cart[j].qty * cart[j].price + q * cart[j].price;
  }

  /** Appending a line raises the total by that line's amount. */
  lemma AppendedTotal(cart: seq<Line>, l: Line)
    ensures CartTotal(cart + [l]) == CartTotal(cart) + l.qty * l.price
  {
    assert (cart + [l])[..|cart|] == cart;
  }

  /** `clearCart`: the cart is emptied and the redrawn total is zero. */
  function ClearCart(cart: seq<Line>): (r: seq<Line>)
    ensures |r| == 0 && CartTotal(r) == 0
  {
    []
  }

  /** What "Complete Order" reports. */
  datatype CheckoutError = Refused(why: Refusal) | OrderFailed(error: Error)

  /**
   * `completeOrderAction`: an empty cart is refused without calling the
   * order service; otherwise the cart is handed to `placeOrder` for the
   * signed-in user, and it is cleared only when the order was placed.
   */
  function CompleteOrder(s: Store, user: Uuid, cart: seq<Line>, freshId: Uuid): (out: (Result<Uuid, CheckoutError>, Store, seq<Line>))
    requires freshId !in s.orders
    ensures cart == [] ==> out == (Fail(Refused(EmptyCart)), s, cart)
    ensures out.0.Fail? ==> out.1 == s && out.2 == cart
    ensures out.0.Ok? ==> out.0.value == freshId && out.2 == []
    ensures cart != [] ==> (out.0.Ok? <==> Admissible(s, Some(user), Some(cart)))
  {
    if cart == [] then (Fail(Refused(EmptyCart)), s, cart)
    else
      var (r, s') := PlaceOrder(s, Some(user), Some(cart), freshId);
      match r
      case Ok(id) => (Ok(id), s', ClearCart(cart))
      case Fail(e) => (Fail(OrderFailed(e)), s, cart)
  }

  // ---------------------------------------------------------------------
  // Carts built on the panel are safe to place
  // ---------------------------------------------------------------------

  /** One "Add Selected to Cart" request: a product row picked from the panel and a quantity. */
  datatype Pick = Pick(product: Uuid, qty: int)

  /** The cart after a series of requests against one stock snapshot; unknown products are ignored. */
  function BuildCart(catalog: map<Uuid, Stock>, picks: seq<Pick>): seq<Line> {
    if picks == [] then []
    else
      var cart := BuildCart(catalog, picks[..|picks| - 1]);
      var k := picks[|picks| - 1];
      if k.product in catalog then ApplyAdd(cart, k.product, catalog[k.product], k.qty) else cart
  }

  /** The cart after the same requests with the merge sum as written. */
  function BuildCartAsWritten(catalog: map<Uuid, Stock>, picks: seq<Pick>): seq<Line> {
    if picks == [] then []
    else
      var cart := BuildCartAsWritten(catalog, picks[..|picks| - 1]);
      var k := picks[|picks| - 1];
      if k.product in catalog then ApplyAddAsWritten(cart, k.product, catalog[k.product], k.qty) else cart
  }

  /** Every cart built with the exact merge sum satisfies the cart invariant. */
  lemma {:induction false} BuildCartInvariant(catalog: map<Uuid, Stock>, picks: seq<Pick>)
    ensures CartInvariant(BuildCart(catalog, picks), catalog)
  {
    if picks != [] {
      var prefix := picks[..|picks| - 1];
      BuildCartInvariant(catalog, prefix);
      var cart := BuildCart(catalog, prefix);
      var k := picks[|picks| - 1];
      if k.product in catalog && AddToCart(cart, k.product, catalog[k.product], k.qty).Ok? {
        AddPreservesInvariant(cart, catalog, k.product, k.qty);
      }
    }
  }

  /**
   * While no stock exceeds half of `INT_MAX`, no merge sum can overflow, so
   * the panel as written builds exactly the carts of the exact rule.
   */
  lemma {:induction false} BuildCartAsWrittenAgrees(catalog: map<Uuid, Stock>, picks: seq<Pick>)
    requires forall p :: p in catalog ==> catalog[p].qty <= INT_MAX / 2
    ensures BuildCartAsWritten(catalog, picks) == BuildCart(catalog, picks)
  {
    if picks != [] {
      var prefix := picks[..|picks| - 1];
      BuildCartAsWrittenAgrees(catalog, prefix);
      BuildCartInvariant(catalog, prefix);
      var cart := BuildCart(catalog, prefix);
      var k := picks[|picks| - 1];
      if k.product in catalog && 0 < k.qty <= catalog[k.product].qty {
        assert forall j :: 0 <= j < |cart| && cart[j].product == k.product ==> IsInt(cart[j].qty + k.qty);
      }
    }
  }

  /**
   * A cart built with the exact merge sum from the store's current stock,
   * placed by a known user, is accepted by `placeOrder`, and leaves no
   * product with negative stock. Stock values are Java `int`s.
   */
  lemma BuiltCartPlacesSafely(s: Store, user: Uuid, picks: seq<Pick>, id: Uuid)
    requires id !in s.orders && user in s.users
    requires BuildCart(s.products, picks) != []
    requires forall p :: p in s.products ==> 0 <= s.products[p].qty <= INT_MAX
    ensures var out := PlaceOrder(s, Some(user), Some(BuildCart(s.products, picks)), id);
      && out.0 == Ok(id)
      && forall p :: p in out.1.products ==> out.1.products[p].qty >= 0
  {
    var cart := BuildCart(s.products, picks);
    BuildCartInvariant(s.products, picks);
    assert forall i :: 0 <= i < |cart| ==> InStock(s.products, cart[i]);
    assert forall i :: 0 <= i < |cart| ==> IsInt(cart[i].qty) && cart[i].qty != INT_MIN;
    forall p | p in s.products
      ensures PlaceOrder(s, Some(user), Some(cart), id).1.products[p].qty >= 0
    {
      DistinctCartKeepsStock(s, user, cart, id, p);
    }
  }

  /**
   * The panel as written is as safe as the exact rule while every stock is
   * at most half of `INT_MAX`: its carts are accepted and leave no negative
   * stock.
   */
  lemma AsWrittenCartPlacesSafely(s: Store, user: Uuid, picks: seq<Pick>, id: Uuid)
    requires id !in s.orders && user in s.users
    requires BuildCartAsWritten(s.products, picks) != []
    requires forall p :: p in s.products ==> 0 <= s.products[p].qty <= INT_MAX / 2
    ensures var out := PlaceOrder(s, Some(user), Some(BuildCartAsWritten(s.products, picks)), id);
      && out.0 == Ok(id)
      && forall p :: p in out.1.products ==> out.1.products[p].qty >= 0
  {
    BuildCartAsWrittenAgrees(s.products, picks);
    BuiltCartPlacesSafely(s, user, picks, id);
  }

  /**
   * As written, the merge check overflows: with the whole stock of
   * `INT_MAX` units already in the cart, adding one more is accepted and
   * the line's quantity wraps to `INT_MIN`. Placing that cart is accepted
   * too, and its stock change overflows as well: the stock ends at -1.
   */
  lemma AsWrittenMergeOverflows()
    ensures var p := Uuid(1, 1);
      var snap := Stock(100, INT_MAX);
      var cart := [Line(p, 100, INT_MAX)];
      var u := Uuid(2, 2);
      var id := Uuid(3, 3);
      var placed := PlaceOrder(Store({u}, map[p := snap], map[], map[]), Some(u), Some([Line(p, 100, INT_MIN)]), id);
      && AddToCartAsWritten(cart, p, snap, 1) == Ok([Line(p, 100, INT_MIN)])
      && !CartInvariant([Line(p, 100, INT_MIN)], map[p := snap])
      && AddToCart(cart, p, snap, 1) == Fail(ExceedsStock)
      && placed.0 == Ok(id) && placed.1.products[p].qty == -1
  {
    IntMinLineLowersStock();
    var p := Uuid(1, 1);
    var snap := Stock(100, INT_MAX);
    var cart := [Line(p, 100, INT_MAX)];
    assert IndexWhere(cart, SameProduct(p)) == Some(0);
    assert Wrap32(INT_MAX + 1) == INT_MIN;
    assert cart[0 := cart[0].(qty := INT_MIN)] == [Line(p, 100, INT_MIN)];
    assert AddToCartAsWritten(cart, p, snap, 1) == Ok([Line(p, 100, INT_MIN)]);
    assert [Line(p, 100, INT_MIN)][0].qty <= 0;
    assert AddToCart(cart, p, snap, 1) == Fail(ExceedsStock);
  }
}

=== FILE: categories.dfy ===
/**
 * The category service: guard clauses in front of the category repository.
 * Names are stored trimmed and lower-cased, and must be unique.
 */
module Categories {
  import opened Outcomes
  import opened UuidCodec
  import opened Tables
  import opened Text

  /** A stored category. */
  datatype Category = Category(id: Uuid, name: string)

  function HasId(id: Uuid): Category -> bool {
    (c: Category) => c.id == id
  }

  function HasName(name: string): Category -> bool {
    (c: Category) => c.name == name
  }

  /** No two stored categories share a name. */
  predicate UniqueNames(t: seq<Category>) {
    forall i, j :: 0 <= i < j < |t| ==> t[i].name != t[j].name
  }

  /**
   * `CategoryService.createCategory`. `name` is the submitted category's
   * name (`None` for a null category, `Some(None)` for a null name);
   * `freshId` is the id the repository assigns to the new row.
   */
  function CreateCategory(t: seq<Category>, name: Option<Option<string>>, freshId: Uuid): (out: (Result<Category, Error>, seq<Category>))
    requires !Exists(t, HasId(freshId))
    ensures out.0.Fail? ==> out.1 == t
    ensures name.None? ==> out.0 == Fail(IllegalArgument(NullInput))
    ensures name.Some? && (name.value.None? || IsBlank(name.value.value)) ==> out.0 == Fail(IllegalArgument(BlankName))
    ensures name.Some? && name.value.Some? && !IsBlank(name.value.value) ==>
      (Exists(t, HasName(Normalize(name.value.value))) <==> out.0 == Fail(IllegalArgument(DuplicateName)))
    ensures out.0.Ok? <==>
      name.Some? && name.value.Some? && !IsBlank(name.value.value) && !Exists(t, HasName(Normalize(name.value.value)))
    ensures out.0.Ok? ==>
      && name.Some? && name.value.Some? && !IsBlank(name.value.value)
      && out.0.value == Category(freshId, Normalize(name.value.value))
      && IsNormalName(out.0.value.name)
      && out.1 == t + [out.0.value]
  {
    if name.None? then (Fail(IllegalArgument(NullInput)), t)
    else if name.value.None? || IsBlank(name.value.value) then (Fail(IllegalArgument(BlankName)), t)
    else
      var normalized := Normalize(name.value.value);
      if FirstWhere(t, HasName(normalized)).Some? then (Fail(IllegalArgument(DuplicateName)), t)
      else
        NormalizeIsNormal(name.value.value);
        var c := Category(freshId, normalized);
        (Ok(c), t + [c])
  }

  /** No two stored categories share an id. */
  predicate UniqueIds(t: seq<Category>) {
    forall i, j :: 0 <= i < j < |t| ==> t[i].id != t[j].id
  }

  /** Creating a category keeps category ids and names unique. */
  lemma CreateKeepsNamesUnique(t: seq<Category>, name: Option<Option<string>>, freshId: Uuid)
    requires !Exists(t, HasId(freshId))
    requires UniqueIds(t) && UniqueNames(t)
    ensures UniqueIds(CreateCategory(t, name, freshId).1) && UniqueNames(CreateCategory(t, name, freshId).1)
  {
    var out := CreateCategory(t, name, freshId);
    if out.0.Ok? {
      var c := out.0.value;
      assert forall i :: 0 <= i < |t| ==> t[i].name != c.name && t[i].id != c.id by {
        assert !Exists(t, HasName(c.name));
      }
    }
  }

  /** `CategoryService.getCategoryById`: a null id fails; otherwise the first row with that id, if any. */
  function GetCategoryById(t: seq<Category>, id: Option<Uuid>): (r: Result<Option<Category>, Error>)
    ensures id.None? <==> r == Fail(IllegalArgument(NullInput))
    ensures id.Some? ==> r.Ok?
    ensures r.Ok? ==> (r.value.Some? <==> Exists(t, HasId(id.value)))
    ensures r.Ok? && r.value.Some? ==> r.value.value in t && r.value.value.id == id.value
  {
    match id
    case None => Fail(IllegalArgument(NullInput))
    case Some(k) => Ok(FirstWhere(t, HasId(k)))
  }

  /**
   * `CategoryService.getCategoryByName`: only a null name fails; any other
   * string, the empty one included, is looked up exactly as given.
   */
  function GetCategoryByName(t: seq<Category>, name: Option<string>): (r: Result<Option<Category>, Error>)
    ensures name.None? <==> r == Fail(IllegalArgument(NullInput))
    ensures name.Some? ==> r.Ok?
    ensures r.Ok? ==> (r.value.Some? <==> Exists(t, HasName(name.value)))
    ensures r.Ok? && r.value.Some? ==> r.value.value in t && r.value.value.name == name.value
  {
    match name
    case None => Fail(IllegalArgument(NullInput))
    case Some(n) => Ok(FirstWhere(t, HasName(n)))
  }

  /**
   * `CategoryService.deleteCategory`: a null id fails and deletes nothing;
   * otherwise the repository's DELETE removes every row with that id (an
   * absent id is not an error). `linked` holds the category ids that
   * products still reference: for those the DELETE violates the foreign key,
   * the repository catches the error and only reports it, and the service
   * returns normally with the category still stored.
   */
  function DeleteCategory(t: seq<Category>, linked: set<Uuid>, id: Option<Uuid>): (out: (Result<(), Error>, seq<Category>))
    ensures id.None? ==> out == (Fail(IllegalArgument(NullInput)), t)
    ensures id.Some? ==> out.0.Ok?
    ensures id.Some? && id.value in linked ==> out.1 == t
    ensures id.Some? && id.value !in linked ==> !Exists(out.1, HasId(id.value))
    ensures id.Some? ==> forall j :: 0 <= j < |t| && t[j].id != id.value ==> t[j] in out.1
    ensures forall j :: 0 <= j < |out.1| ==> out.1[j] in t
  {
    match id
    case None => (Fail(IllegalArgument(NullInput)), t)
    case Some(k) =>
      if k in linked then (Ok(()), t)
      else (Ok(()), Select(t, (c: Category) => c.id != k))
  }

  /** A category just created is found by its id and by its stored name. */
  lemma CreatedCategoryIsFound(t: seq<Category>, name: Option<Option<string>>, freshId: Uuid)
    requires !Exists(t, HasId(freshId))
    requires CreateCategory(t, name, freshId).0.Ok?
    ensures var out := CreateCategory(t, name, freshId);
      && GetCategoryById(out.1, Some(freshId)) == Ok(Some(out.0.value))
      && GetCategoryByName(out.1, Some(out.0.value.name)) == Ok(Some(out.0.value))
  {
    var out := CreateCategory(t, name, freshId);
    var c := out.0.value;
    FirstWhereOfAppended(t, c, HasId(freshId));
    FirstWhereOfAppended(t, c, HasName(c.name));
  }

  /**
   * After a delete no category with that id is found, unless products still
   * reference it: then the lookup finds what it found before.
   */
  lemma DeletedCategoryIsGone(t: seq<Category>, linked: set<Uuid>, id: Uuid)
    ensures id !in linked ==> GetCategoryById(DeleteCategory(t, linked, Some(id)).1, Some(id)) == Ok(None)
    ensures id in linked ==> GetCategoryById(DeleteCategory(t, linked, Some(id)).1, Some(id)) == GetCategoryById(t, Some(id))
  {
  }
}

=== FILE: inventory.dfy ===
/**
 * The inventory controller's partial product update: a price, a quantity or
 * both. A quantity-only update takes a direct stock path; anything else
 * re-reads the product, overwrites the given fields and goes through the
 * product service's full update. Failures inside the update surface wrapped
 * in a RuntimeException; the two argument checks in front of it do not.
 */
module Inventory {
  import opened Outcomes
  import opened UuidCodec
  import opened Tables
  import opened Text
  import opened Products
  import Categories

  /** The inventory service's quantity update: the stock of every row with that id set to `q`. */
  function SetQuantity(t: seq<Product>, id: Uuid, q: int): (r: seq<Product>)
    ensures |r| == |t|
    ensures forall j :: 0 <= j < |t| ==> r[j] == if t[j].id == id then t[j].(qty := q) else t[j]
  {
    UpdateWhere(t, HasId(id), (p: Product) => p.(qty := q))
  }

  /** The stored product with the given fields overwritten; every other field keeps its stored value. */
  function Merge(p: Product, newPrice: Option<int>, newQty: Option<int>): (r: Product)
    ensures r.id == p.id && r.name == p.name && r.category == p.category
    ensures newPrice.Some? ==> r.price == newPrice.value
    ensures newPrice.None? ==> r.price == p.price
    ensures newQty.Some? ==> r.qty == newQty.value
    ensures newQty.None? ==> r.qty == p.qty
  {
    var priced := if newPrice.Some? then p.(price := newPrice.value) else p;
    if newQty.Some? then priced.(qty := newQty.value) else priced
  }

  /** A stored product handed back to the product service for a full update. */
  function AsInput(p: Product): ProductInput {
    ProductInput(Some(p.id), Some(p.name), p.category, p.price, p.qty)
  }

  /** A failure raised inside the controller's try block, as the catch-all rethrows it. */
  function Wrap<T>(r: Result<T, Error>): Result<T, Error> {
    match r
    case Ok(v) => Ok(v)
    case Fail(e) => Fail(Wrapped(e))
  }

  /** `InventoryController.updateProductDetails`. */
  function UpdateProductDetails(t: seq<Product>, cats: seq<Categories.Category>, id: Option<Uuid>,
                                newPrice: Option<int>, newQty: Option<int>): (out: (Result<Product, Error>, seq<Product>))
    ensures id.None? ==> out == (Fail(IllegalArgument(NullInput)), t)
    ensures id.Some? && newPrice.None? && newQty.None? ==> out == (Fail(IllegalArgument(NothingToUpdate)), t)
    ensures id.Some? && (newPrice.Some? || newQty.Some?) && out.0.Fail? ==> out.0.error.Wrapped?
    // quantity only
    ensures id.Some? && newPrice.None? && newQty.Some? && newQty.value < 0 ==>
      out == (Fail(Wrapped(IllegalArgument(NegativeValue))), t)
    ensures id.Some? && newPrice.None? && newQty.Some? && newQty.value >= 0 ==>
      && out.1 == SetQuantity(t, id.value, newQty.value)
      && (out.0.Ok? <==> Exists(t, HasId(id.value)))
      && (out.0.Fail? ==> out.0.error == Wrapped(Runtime(FetchFailed)))
      && (out.0.Ok? ==> out.0.value in out.1 && out.0.value.id == id.value && out.0.value.qty == newQty.value)
    // price, or price and quantity
    ensures id.Some? && newPrice.Some? && !Exists(t, HasId(id.value)) ==>
      out == (Fail(Wrapped(IllegalArgument(NotFound))), t)
    ensures id.Some? && newPrice.Some? && Exists(t, HasId(id.value)) ==>
      (var stored := FirstWhere(t, HasId(id.value)).value;
       var update := UpdateProduct(t, cats, Some(AsInput(Merge(stored, newPrice, newQty))));
       && out.1 == update.1
       && (out.0.Ok? <==> update.0.Ok?)
       && (out.0.Fail? ==> out.0.error == Wrapped(update.0.error))
       && (out.0.Ok? ==>
             out.0.value == Product(id.value, Normalize(stored.name), stored.category, newPrice.value, newQty.GetOr(stored.qty))))
  {
    if id.None? then (Fail(IllegalArgument(NullInput)), t)
    else if newPrice.None? && newQty.None? then (Fail(IllegalArgument(NothingToUpdate)), t)
    else if newPrice.None? then
      var q := newQty.value;
      if q < 0 then (Fail(Wrapped(IllegalArgument(NegativeValue))), t)
      else
        var t' := SetQuantity(t, id.value, q);
        SetQuantityKeepsIds(t, id.value, q);
        match GetProductById(t', id)
        case Ok(Some(p)) => (Ok(p), t')
        case _ => (Fail(Wrapped(Runtime(FetchFailed))), t')
    else
      match GetProductById(t, id)
      case Ok(Some(stored)) =>
        var update := UpdateProduct(t, cats, Some(AsInput(Merge(stored, newPrice, newQty))));
        (Wrap(update.0), update.1)
      case _ => (Fail(Wrapped(IllegalArgument(NotFound))), t)
  }

  /** Setting a quantity leaves the set of ids in the table as it was. */
  lemma SetQuantityKeepsIds(t: seq<Product>, id: Uuid, q: int)
    ensures forall k :: Exists(SetQuantity(t, id, q), HasId(k)) <==> Exists(t, HasId(k))
  {
    var t' := SetQuantity(t, id, q);
    assert forall j :: 0 <= j < |t| ==> t'[j].id == t[j].id;
  }
}

=== FILE: javaint.dfy ===
/**
 * Java `int` arithmetic, where the model needs it: the value range of a
 * 32-bit signed integer and the wrap-around of an overflowing result.
 */
module JavaInt {

  const INT_MIN: int := -0x8000_0000
  const INT_MAX: int := 0x7FFF_FFFF

  /** The value range of a Java `int`. */
  predicate IsInt(x: int) {
    INT_MIN <= x <= INT_MAX
  }

  /** The result of a Java `int` addition or multiplication, wrapped into 32 bits. */
  function Wrap32(x: int): (r: int)
    ensures IsInt(r)
    ensures (r - x) % 0x1_0000_0000 == 0
    ensures IsInt(x) ==> r == x
  {
    (x - INT_MIN) % 0x1_0000_0000 + INT_MIN
  }
}

=== FILE: orders.dfy ===
/**
 * The order fulfilment service: placing an order (validate the purchaser and
 * every cart line, then write the header, the lines and the stock
 * decrements), deleting an order and reading one back. The repositories
 * behind it are modelled as maps.
 */
module Orders {
  import opened Outcomes
  import opened UuidCodec
  import opened JavaInt

  /** Order lifecycle: saved as PENDING, moved to PROCESSING once stock is decremented. */
  datatype Status = Pending | Processing

  /** What the service reads of a product: its current price (cents) and stock quantity. */
  datatype Stock = Stock(price: int, qty: int)

  /** An order header as the order repository stores it. */
  datatype Header = Header(user: Uuid, status: Status)

  /** An order line: the product, the price captured for it (cents) and the quantity. */
  datatype Line = Line(product: Uuid, price: int, qty: int)

  /** The four repositories the service writes through. */
  datatype Store = Store(
    users: set<Uuid>,
    products: map<Uuid, Stock>,
    orders: map<Uuid, Header>,
    lines: map<Uuid, seq<Line>>)

  /** An order as read back: the header with its lines attached. */
  datatype Order = Order(id: Uuid, header: Header, lines: seq<Line>)

  /** The lines stored for order `id` (none when the line repository holds none). */
  function LinesOf(s: Store, id: Uuid): seq<Line> {
    if id in s.lines then s.lines[id] else []
  }

  // ---------------------------------------------------------------------
  // Validation phase
  // ---------------------------------------------------------------------

  /** A cart line passes the per-line check: its product exists and has at least that much stock. */
  predicate InStock(products: map<Uuid, Stock>, l: Line) {
    l.product in products && l.qty <= products[l.product].qty
  }

  /** The failure raised for a cart line that does not pass the per-line check. */
  function LineError(products: map<Uuid, Stock>, l: Line): Error {
    if l.product !in products then IllegalArgument(ProductNotFound)
    else IllegalArgument(InsufficientStock(products[l.product].qty, l.qty))
  }

  /** Line `i` is the first cart line that fails the per-line check. */
  predicate FirstFailure(products: map<Uuid, Stock>, cart: seq<Line>, i: int) {
    && 0 <= i < |cart|
    && !InStock(products, cart[i])
    && forall j :: 0 <= j < i ==> InStock(products, cart[j])
  }

  /**
   * The loop over the cart: each line is checked against the stock as it is
   * now, and on success carries the product's current price. The first
   * failing line decides the failure.
   */
  function ValidateLines(products: map<Uuid, Stock>, cart: seq<Line>): (r: Result<seq<Line>, Error>)
    ensures r.Ok? <==> forall i :: 0 <= i < |cart| ==> InStock(products, cart[i])
    ensures r.Ok? ==> |r.value| == |cart|
    ensures r.Ok? ==> forall i :: 0 <= i < |cart| ==>
      r.value[i] == Line(cart[i].product, products[cart[i].product].price, cart[i].qty)
    ensures r.Fail? ==> forall i :: FirstFailure(products, cart, i) ==> r.error == LineError(products, cart[i])
  {
    if cart == [] then Ok([])
    else
      var l := cart[0];
      if !InStock(products, l) then
        assert forall i :: FirstFailure(products, cart, i) ==> i == 0;
        Fail(LineError(products, l))
      else
        match ValidateLines(products, cart[1..])
        case Fail(e) =>
          assert forall i :: FirstFailure(products, cart, i) ==> FirstFailure(products, cart[1..], i - 1);
          Fail(e)
        case Ok(rest) =>
          Ok([Line(l.product, products[l.product].price, l.qty)] + rest)
  }

  /** Every validation guard of `placeOrder` passes. */
  predicate Admissible(s: Store, user: Option<Uuid>, cart: Option<seq<Line>>) {
    && user.Some? && cart.Some? && cart.value != []
    && user.value in s.users
    && forall i :: 0 <= i < |cart.value| ==> InStock(s.products, cart.value[i])
  }

  // ---------------------------------------------------------------------
  // Write phase
  // ---------------------------------------------------------------------

  /**
   * The stock change passed for a line of `q` units: the Java `int` product
   * `q * -1`. It is `-q` for every `int` except `INT_MIN`, whose negation
   * overflows back to `INT_MIN`.
   */
  function StockChange(q: int): (r: int)
    ensures IsInt(r)
    ensures IsInt(q) && q != INT_MIN ==> r == -q
    ensures q == INT_MIN ==> r == INT_MIN
  {
    Wrap32(q * -1)
  }

  /** Total stock the stock updates of the lines take from product `p`. */
  function Demand(lines: seq<Line>, p: Uuid): int {
    if lines == [] then 0
    else (if lines[0].product == p then -StockChange(lines[0].qty) else 0) + Demand(lines[1..], p)
  }

  /** `updateStock(line.product, line.qty * -1)`: a signed change on one product (no row, no change). */
  function ApplyLine(products: map<Uuid, Stock>, l: Line): map<Uuid, Stock> {
    if l.product in products then
      products[l.product := products[l.product].(qty := products[l.product].qty + StockChange(l.qty))]
    else products
  }

  /** The stock loop: one decrement per line, in cart order. */
  function Decrement(products: map<Uuid, Stock>, lines: seq<Line>): (r: map<Uuid, Stock>)
    ensures r.Keys == products.Keys
    ensures forall p :: p in products ==>
      r[p] == Stock(products[p].price, products[p].qty - Demand(lines, p))
  {
    if lines == [] then products
    else Decrement(ApplyLine(products, lines[0]), lines[1..])
  }

  /**
   * `orderDAO.save`: the new header, status PENDING. The service builds the
   * order as PENDING, but the repository's INSERT writes only the order and
   * user ids: the stored PENDING rests on the status column's default, which
   * is not part of this model.
   */
  function SaveHeader(s: Store, id: Uuid, user: Uuid): Store {
    s.(orders := s.orders[id := Header(user, Pending)])
  }

  /** `orderItemDAO.saveAll`: the lines, all bound to order `id`, appended to its line set. */
  function SaveLines(s: Store, id: Uuid, lines: seq<Line>): Store {
    s.(lines := s.lines[id := LinesOf(s, id) + lines])
  }

  /** `orderDAO.update` with status PROCESSING. */
  function MarkProcessing(s: Store, id: Uuid): Store
    requires id in s.orders
  {
    s.(orders := s.orders[id := s.orders[id].(status := Processing)])
  }

  /**
   * The store after each write of the write phase, in order: header saved,
   * lines saved, stock decremented, status updated. Each of these is a
   * separate repository call; a failure between two of them leaves the
   * store in the state listed before it.
   */
  function WritePhase(s: Store, id: Uuid, user: Uuid, lines: seq<Line>): (trace: seq<Store>)
    ensures |trace| == 4
  {
    var s1 := SaveHeader(s, id, user);
    var s2 := SaveLines(s1, id, lines);
    var s3 := s2.(products := Decrement(s2.products, lines));
    var s4 := MarkProcessing(s3, id);
    [s1, s2, s3, s4]
  }

  /**
   * What a successful placement did to the store: the order header (status
   * PROCESSING) and its priced lines are added, every product's stock drops
   * by the cart's demand for it, and nothing else changes.
   */
  predicate Placed(s: Store, s': Store, user: Uuid, cart: seq<Line>, id: Uuid)
    requires forall i :: 0 <= i < |cart| ==> cart[i].product in s.products
  {
    && s'.users == s.users
    && s'.orders == s.orders[id := Header(user, Processing)]
    && s'.lines.Keys == s.lines.Keys + {id}
    && (forall k :: k in s.lines && k != id ==> s'.lines[k] == s.lines[k])
    && |LinesOf(s', id)| == |LinesOf(s, id)| + |cart|
    && LinesOf(s', id)[..|LinesOf(s, id)|] == LinesOf(s, id)
    && (forall i :: 0 <= i < |cart| ==>
          LinesOf(s', id)[|LinesOf(s, id)| + i] == Line(cart[i].product, s.products[cart[i].product].price, cart[i].qty))
    && s'.products.Keys == s.products.Keys
    && (forall p :: p in s.products ==>
          s'.products[p] == Stock(s.products[p].price, s.products[p].qty - Demand(cart, p)))
  }

  /** Two line sequences that agree on products and quantities make the same demand. */
  lemma {:induction false} DemandIgnoresPrice(a: seq<Line>, b: seq<Line>, p: Uuid)
    requires |a| == |b|
    requires forall i :: 0 <= i < |a| ==> a[i].product == b[i].product && a[i].qty == b[i].qty
    ensures Demand(a, p) == Demand(b, p)
  {
    if a != [] {
      DemandIgnoresPrice(a[1..], b[1..], p);
    }
  }

  /**
   * `OrderService.placeOrder`. `freshId` is the id the order repository
   * assigns to the new header. Every failure is raised by the validation
   * phase, before any write, so a failure leaves the store as it was.
   */
  function PlaceOrder(s: Store, user: Option<Uuid>, cart: Option<seq<Line>>, freshId: Uuid): (out: (Result<Uuid, Error>, Store))
    requires freshId !in s.orders
    ensures out.0.Fail? ==> out.1 == s
    ensures out.0.Ok? <==> Admissible(s, user, cart)
    ensures user.None? || cart.None? || cart == Some([]) ==> out.0 == Fail(IllegalArgument(MissingInput))
    ensures user.Some? && cart.Some? && cart.value != [] && user.value !in s.users ==>
      out.0 == Fail(IllegalArgument(UserNotFound))
    ensures user.Some? && cart.Some? && cart.value != [] && user.value in s.users ==>
      forall i :: FirstFailure(s.products, cart.value, i) ==> out.0 == Fail(LineError(s.products, cart.value[i]))
    ensures out.0.Ok? ==> out.0.value == freshId && Placed(s, out.1, user.value, cart.value, freshId)
  {
    if user.None? || cart.None? || cart.value == [] then
      (Fail(IllegalArgument(MissingInput)), s)
    else if user.value !in s.users then
      (Fail(IllegalArgument(UserNotFound)), s)
    else
      match ValidateLines(s.products, cart.value)
      case Fail(e) => (Fail(e), s)
      case Ok(priced) =>
        WritePhasePlaces(s, freshId, user.value, cart.value, priced);
        (Ok(freshId), WritePhase(s, freshId, user.value, priced)[3])
  }

  /** The write phase run on the priced cart lines performs a placement of the cart. */
  lemma WritePhasePlaces(s: Store, id: Uuid, user: Uuid, cart: seq<Line>, priced: seq<Line>)
    requires forall i :: 0 <= i < |cart| ==> cart[i].product in s.products
    requires |priced| == |cart|
    requires forall i :: 0 <= i < |cart| ==>
      priced[i] == Line(cart[i].product, s.products[cart[i].product].price, cart[i].qty)
    ensures Placed(s, WritePhase(s, id, user, priced)[3], user, cart, id)
  {
    var s1 := SaveHeader(s, id, user);
    var s2 := SaveLines(s1, id, priced);
    var s' := MarkProcessing(s2.(products := Decrement(s2.products, priced)), id);
    assert s' == WritePhase(s, id, user, priced)[3];
    assert s'.orders == s.orders[id := Header(user, Processing)];
    PlacedOfParts(s, s', user, cart, id, priced);
  }

  /** A store that differs from `s` exactly as the write phase leaves it is a placement of the cart. */
  lemma PlacedOfParts(s: Store, s': Store, user: Uuid, cart: seq<Line>, id: Uuid, priced: seq<Line>)
    requires forall i :: 0 <= i < |cart| ==> cart[i].product in s.products
    requires |priced| == |cart|
    requires forall i :: 0 <= i < |cart| ==>
      priced[i] == Line(cart[i].product, s.products[cart[i].product].price, cart[i].qty)
    requires s'.users == s.users
    requires s'.orders == s.orders[id := Header(user, Processing)]
    requires s'.lines == s.lines[id := LinesOf(s, id) + priced]
    requires s'.products == Decrement(s.products, priced)
    ensures Placed(s, s', user, cart, id)
  {
    assert LinesOf(s', id) == LinesOf(s, id) + priced;
    StockAfterPricedLines(s.products, cart, priced);
  }

  /** Decrementing by the priced lines removes the cart's demand from every product. */
  lemma StockAfterPricedLines(products: map<Uuid, Stock>, cart: seq<Line>, priced: seq<Line>)
    requires |priced| == |cart|
    requires forall i :: 0 <= i < |cart| ==> priced[i].product == cart[i].product && priced[i].qty == cart[i].qty
    ensures forall p :: p in products ==>
      Decrement(products, priced)[p] == Stock(products[p].price, products[p].qty - Demand(cart, p))
  {
    forall p | p in products
      ensures Demand(priced, p) == Demand(cart, p)
    {
      DemandIgnoresPrice(priced, cart, p);
    }
  }

  /**
   * The write phase begins by saving the header as PENDING with no new lines
   * and no stock change, and ends with the same header as PROCESSING: the
   * intermediate states are the ones a failed write would leave behind.
   */
  lemma WritePhaseOrder(s: Store, id: Uuid, user: Uuid, lines: seq<Line>)
    requires id !in s.orders && id !in s.lines
    ensures var t := WritePhase(s, id, user, lines);
      && t[0].orders[id] == Header(user, Pending) && LinesOf(t[0], id) == [] && t[0].products == s.products
      && t[1].orders[id] == Header(user, Pending) && LinesOf(t[1], id) == lines && t[1].products == s.products
      && t[2].orders[id] == Header(user, Pending) && t[2].products == Decrement(s.products, lines)
      && t[3].orders[id] == Header(user, Processing)
  {
  }

  // ---------------------------------------------------------------------
  // Stock properties of a placement
  // ---------------------------------------------------------------------

  /** No two lines of the cart name the same product. */
  predicate DistinctProducts(cart: seq<Line>) {
    forall i, j :: 0 <= i < j < |cart| ==> cart[i].product != cart[j].product
  }

  /** A product no line names has no demand. */
  lemma {:induction false} DemandOfAbsent(cart: seq<Line>, p: Uuid)
    requires forall i :: 0 <= i < |cart| ==> cart[i].product != p
    ensures Demand(cart, p) == 0
  {
    if cart != [] {
      DemandOfAbsent(cart[1..], p);
    }
  }

  /** In a cart of distinct products, the demand for a line's product is what that line's stock update takes. */
  lemma {:induction false} DemandOfDistinct(cart: seq<Line>, i: nat)
    requires DistinctProducts(cart) && i < |cart|
    ensures Demand(cart, cart[i].product) == -StockChange(cart[i].qty)
  {
    if i == 0 {
      DemandOfAbsent(cart[1..], cart[0].product);
    } else {
      DemandOfDistinct(cart[1..], i - 1);
    }
  }

  /** A successful placement leaves every product no cart line names exactly as it was. */
  lemma UntouchedProductsUnchanged(s: Store, user: Uuid, cart: seq<Line>, id: Uuid, p: Uuid)
    requires id !in s.orders
    requires PlaceOrder(s, Some(user), Some(cart), id).0.Ok?
    requires p in s.products && forall i :: 0 <= i < |cart| ==> cart[i].product != p
    ensures PlaceOrder(s, Some(user), Some(cart), id).1.products[p] == s.products[p]
  {
    DemandOfAbsent(cart, p);
  }

  /**
   * The stock check is per line, so stock cannot go negative only when the
   * cart's products are distinct: then a successful placement leaves a
   * product that had non-negative stock with non-negative stock, whatever
   * the other products hold. Quantities are Java `int`s; a line of `INT_MIN`
   * units is excluded because its stock change overflows
   * (`IntMinLineLowersStock`).
   */
  lemma DistinctCartKeepsStock(s: Store, user: Uuid, cart: seq<Line>, id: Uuid, p: Uuid)
    requires id !in s.orders
    requires DistinctProducts(cart)
    requires forall i :: 0 <= i < |cart| ==> IsInt(cart[i].qty) && cart[i].qty != INT_MIN
    requires p in s.products && s.products[p].qty >= 0
    requires PlaceOrder(s, Some(user), Some(cart), id).0.Ok?
    ensures PlaceOrder(s, Some(user), Some(cart), id).1.products[p].qty >= 0
  {
    if i :| 0 <= i < |cart| && cart[i].product == p {
      DemandOfDistinct(cart, i);
      assert InStock(s.products, cart[i]);
    } else {
      DemandOfAbsent(cart, p);
    }
  }

  /**
   * With a repeated product the per-line check lets the order through even
   * though the lines together ask for more than is in stock: one unit in
   * stock, two lines of one unit each, and the stock ends at -1.
   */
  lemma DuplicateLinesOversell()
    ensures var p := Uuid(1, 1);
      var u := Uuid(2, 2);
      var id := Uuid(3, 3);
      var s := Store({u}, map[p := Stock(500, 1)], map[], map[]);
      var out := PlaceOrder(s, Some(u), Some([Line(p, 0, 1), Line(p, 0, 1)]), id);
      out.0 == Ok(id) && out.1.products[p].qty == -1
  {
    var p := Uuid(1, 1);
    var cart := [Line(p, 0, 1), Line(p, 0, 1)];
    assert Demand(cart, p) == 2 by {
      assert cart[1..] == [Line(p, 0, 1)];
      assert cart[1..][1..] == [];
    }
  }

  /**
   * Line quantities are not checked to be positive: a line of -5 units passes
   * the stock check and the stock update, `qty * -1`, raises the stock by 5.
   */
  lemma NegativeLineRaisesStock()
    ensures var p := Uuid(1, 1);
      var u := Uuid(2, 2);
      var id := Uuid(3, 3);
      var s := Store({u}, map[p := Stock(500, 1)], map[], map[]);
      var out := PlaceOrder(s, Some(u), Some([Line(p, 0, -5)]), id);
      out.0 == Ok(id) && out.1.products[p].qty == 6
  {
    var p := Uuid(1, 1);
    var cart := [Line(p, 0, -5)];
    assert Demand(cart, p) == -5 by {
      assert cart[1..] == [];
    }
  }

  /**
   * A line of `INT_MIN` units passes the stock check, and its stock change
   * `INT_MIN * -1` overflows to `INT_MIN`: the stock drops by 2^31 instead
   * of rising, from `INT_MAX` to -1.
   */
  lemma IntMinLineLowersStock()
    ensures var p := Uuid(1, 1);
      var u := Uuid(2, 2);
      var id := Uuid(3, 3);
      var s := Store({u}, map[p := Stock(100, INT_MAX)], map[], map[]);
      var out := PlaceOrder(s, Some(u), Some([Line(p, 100, INT_MIN)]), id);
      out.0 == Ok(id) && out.1.products[p].qty == -1
  {
    var p := Uuid(1, 1);
    var cart := [Line(p, 100, INT_MIN)];
    assert Demand(cart, p) == -INT_MIN by {
      assert cart[1..] == [];
    }
  }

  // ---------------------------------------------------------------------
  // Delete and read
  // ---------------------------------------------------------------------

  /**
   * `OrderService.deleteOrder`: a null id or an id with no header fails and
   * deletes nothing; otherwise the order's lines, then its header, are
   * removed. Stock is not restored.
   */
  function DeleteOrder(s: Store, id: Option<Uuid>): (out: (Result<(), Error>, Store))
    ensures id.None? ==> out == (Fail(IllegalArgument(NullInput)), s)
    ensures id.Some? && id.value !in s.orders ==> out == (Fail(IllegalArgument(OrderNotFound)), s)
    ensures out.0.Ok? <==> id.Some? && id.value in s.orders
    ensures out.0.Ok? ==>
      && out.1.orders.Keys == s.orders.Keys - {id.value}
      && out.1.lines.Keys == s.lines.Keys - {id.value}
      && (forall k :: k in out.1.orders ==> out.1.orders[k] == s.orders[k])
      && (forall k :: k in out.1.lines ==> out.1.lines[k] == s.lines[k])
      && out.1.products == s.products && out.1.users == s.users
  {
    match id
    case None => (Fail(IllegalArgument(NullInput)), s)
    case Some(k) =>
      if k !in s.orders then (Fail(IllegalArgument(OrderNotFound)), s)
      else
        var withoutLines := s.(lines := s.lines - {k});
        (Ok(()), withoutLines.(orders := withoutLines.orders - {k}))
  }

  /** `OrderService.findOrderById`: a null id fails; otherwise the order with its lines, if its header exists. */
  function FindOrderById(s: Store, id: Option<Uuid>): (r: Result<Option<Order>, Error>)
    ensures id.None? <==> r == Fail(IllegalArgument(NullInput))
    ensures id.Some? ==> r.Ok?
    ensures r.Ok? ==> (r.value.Some? <==> id.value in s.orders)
    ensures r.Ok? && r.value.Some? ==>
      r.value.value == Order(id.value, s.orders[id.value], LinesOf(s, id.value))
  {
    match id
    case None => Fail(IllegalArgument(NullInput))
    case Some(k) =>
      if k in s.orders then Ok(Some(Order(k, s.orders[k], LinesOf(s, k)))) else Ok(None)
  }

  /**
   * Reading back a just-placed order (for an id with no stale lines) finds it
   * PROCESSING, owned by the purchaser, with exactly the cart's lines at the
   * prices the products had when the order was placed.
   */
  lemma FindAfterPlace(s: Store, user: Uuid, cart: seq<Line>, id: Uuid)
    requires id !in s.orders && id !in s.lines
    requires PlaceOrder(s, Some(user), Some(cart), id).0.Ok?
    ensures var r := FindOrderById(PlaceOrder(s, Some(user), Some(cart), id).1, Some(id));
      && r.Ok? && r.value.Some?
      && r.value.value.header == Header(user, Processing)
      && |r.value.value.lines| == |cart|
      && forall i :: 0 <= i < |cart| ==>
           r.value.value.lines[i] == Line(cart[i].product, s.products[cart[i].product].price, cart[i].qty)
  {
    var s' := PlaceOrder(s, Some(user), Some(cart), id).1;
    assert Placed(s, s', user, cart, id);
    assert LinesOf(s, id) == [];
    assert s'.orders[id] == Header(user, Processing);
  }

  /**
   * Deleting a just-placed order (for an id with no stale lines) restores the
   * order and line repositories exactly; the stock decrements remain.
   */
  lemma DeleteUndoesPlaceExceptStock(s: Store, user: Uuid, cart: seq<Line>, id: Uuid)
    requires id !in s.orders && id !in s.lines
    requires PlaceOrder(s, Some(user), Some(cart), id).0.Ok?
    ensures var placed := PlaceOrder(s, Some(user), Some(cart), id).1;
      var out := DeleteOrder(placed, Some(id));
      && out.0.Ok?
      && out.1.orders == s.orders && out.1.lines == s.lines && out.1.users == s.users
      && out.1.products == placed.products
  {
    var placed := PlaceOrder(s, Some(user), Some(cart), id).1;
    DeleteAfterPlaced(s, placed, user, cart, id);
  }

  /** Removing order `id` from a store that `Placed` produced gives back the original repositories. */
  lemma DeleteAfterPlaced(s: Store, placed: Store, user: Uuid, cart: seq<Line>, id: Uuid)
    requires id !in s.orders && id !in s.lines
    requires forall i :: 0 <= i < |cart| ==> cart[i].product in s.products
    requires Placed(s, placed, user, cart, id)
    ensures var out := DeleteOrder(placed, Some(id));
      && out.0.Ok?
      && out.1.orders == s.orders && out.1.lines == s.lines && out.1.users == s.users
      && out.1.products == placed.products
  {
    var out := DeleteOrder(placed, Some(id));
    assert out.1.orders.Keys == s.orders.Keys;
    assert out.1.orders == s.orders;
    assert out.1.lines.Keys == s.lines.Keys;
    assert out.1.lines == s.lines;
  }

  /** After a successful delete the order can no longer be found, and deleting it again fails. */
  lemma DeleteIsFinal(s: Store, id: Uuid)
    requires DeleteOrder(s, Some(id)).0.Ok?
    ensures var s' := DeleteOrder(s, Some(id)).1;
      && FindOrderById(s', Some(id)) == Ok(None)
      && DeleteOrder(s', Some(id)) == (Fail(IllegalArgument(OrderNotFound)), s')
  {
  }
}

=== FILE: outcomes.dfy ===
/**
 * Value types shared by every service of the model: a nullable reference
 * becomes an `Option`, a method that may throw becomes a `Result`, and the
 * exceptions the services raise become `Error` values.
 */
module Outcomes {

  /** A Java reference that may be null. */
  datatype Option<+T> = None | Some(value: T) {

    /** The wrapped value, or `default` when this is `None`. */
    function GetOr(default: T): T {
      match this
      case Some(v) => v
      case None => default
    }
  }

  /** Either the value a call returns or the failure it raises. */
  datatype Result<+T, +E> = Ok(value: T) | Fail(error: E)

  /** Why a guard clause refused its input; the services' messages, classified. */
  datatype Reason =
    | NullInput                                   // a required argument is null
    | MissingInput                                // null user, null cart or empty cart
    | BlankName                                   // a name or username null or blank after trim
    | BlankPassword
    | BlankRole
    | DuplicateName                               // the name is held by another record
    | NotFound                                    // the record to read, update or delete is absent
    | UserNotFound
    | ProductNotFound
    | OrderNotFound
    | InvalidCategory                             // a non-null category id that does not exist
    | NegativeValue                               // a negative price, quantity or threshold
    | NothingToUpdate                             // neither a new price nor a new quantity
    | InsufficientStock(available: int, requested: int)
    | FetchFailed                                 // an update succeeded but the re-read found nothing

  /** The exceptions the services raise. */
  datatype Error =
    | IllegalArgument(reason: Reason)             // IllegalArgumentException
    | InvalidCredentials                          // SecurityException("Invalid credentials.")
    | Runtime(cause: Reason)                      // RuntimeException raised directly
    | Wrapped(inner: Error)                       // RuntimeException wrapping a caught exception
}

=== FILE: products.dfy ===
/**
 * The product service: guard clauses in front of the product repository.
 * Names are stored trimmed and lower-cased and must be unique; an update may
 * keep its own name, and a category it names must exist.
 */
module Products {
  import opened Outcomes
  import opened UuidCodec
  import opened Tables
  import opened Text
  import Categories

  /** A stored product; the price is in cents. */
  datatype Product = Product(id: Uuid, name: string, category: Option<Uuid>, price: int, qty: int)

  /** A product as submitted to the service; its name may be null. */
  datatype ProductInput = ProductInput(id: Option<Uuid>, name: Option<string>, category: Option<Uuid>, price: int, qty: int)

  function HasId(id: Uuid): Product -> bool {
    (p: Product) => p.id == id
  }

  function HasName(name: string): Product -> bool {
    (p: Product) => p.name == name
  }

  /** No two stored products share an id. */
  predicate UniqueIds(t: seq<Product>) {
    forall i, j :: 0 <= i < j < |t| ==> t[i].id != t[j].id
  }

  /** No two stored products share a name. */
  predicate UniqueNames(t: seq<Product>) {
    forall i, j :: 0 <= i < j < |t| ==> t[i].name != t[j].name
  }

  /** The input's name is present and not blank. */
  predicate HasUsableName(p: ProductInput) {
    p.name.Some? && !IsBlank(p.name.value)
  }

  /**
   * `ProductService.createProduct`. `freshId` is the random id the new
   * product carries. Price and quantity are not checked here.
   */
  function CreateProduct(t: seq<Product>, p: Option<ProductInput>, freshId: Uuid): (out: (Result<Product, Error>, seq<Product>))
    requires !Exists(t, HasId(freshId))
    ensures out.0.Fail? ==> out.1 == t
    ensures p.None? ==> out.0 == Fail(IllegalArgument(NullInput))
    ensures p.Some? && !HasUsableName(p.value) ==> out.0 == Fail(IllegalArgument(BlankName))
    ensures p.Some? && HasUsableName(p.value) ==>
      (Exists(t, HasName(Normalize(p.value.name.value))) <==> out.0 == Fail(IllegalArgument(DuplicateName)))
    ensures out.0.Ok? <==> p.Some? && HasUsableName(p.value) && !Exists(t, HasName(Normalize(p.value.name.value)))
    ensures out.0.Ok? ==>
      && p.Some? && HasUsableName(p.value)
      && out.0.value == Product(freshId, Normalize(p.value.name.value), p.value.category, p.value.price, p.value.qty)
      && IsNormalName(out.0.value.name)
      && out.1 == t + [out.0.value]
  {
    if p.None? then (Fail(IllegalArgument(NullInput)), t)
    else if !HasUsableName(p.value) then (Fail(IllegalArgument(BlankName)), t)
    else
      var normalized := Normalize(p.value.name.value);
      if FirstWhere(t, HasName(normalized)).Some? then (Fail(IllegalArgument(DuplicateName)), t)
      else
        NormalizeIsNormal(p.value.name.value);
        var created := Product(freshId, normalized, p.value.category, p.value.price, p.value.qty);
        (Ok(created), t + [created])
  }

  /** Creating a product keeps ids and names unique. */
  lemma CreateKeepsKeysUnique(t: seq<Product>, p: Option<ProductInput>, freshId: Uuid)
    requires !Exists(t, HasId(freshId))
    requires UniqueIds(t) && UniqueNames(t)
    ensures UniqueIds(CreateProduct(t, p, freshId).1) && UniqueNames(CreateProduct(t, p, freshId).1)
  {
    var out := CreateProduct(t, p, freshId);
    if out.0.Ok? {
      var c := out.0.value;
      assert c.id == freshId && c.name == Normalize(p.value.name.value);
      AppendKeepsKeysUnique(t, c);
    }
  }

  /** Appending a product whose id and name are new keeps ids and names unique. */
  lemma AppendKeepsKeysUnique(t: seq<Product>, c: Product)
    requires UniqueIds(t) && UniqueNames(t)
    requires !Exists(t, HasId(c.id)) && !Exists(t, HasName(c.name))
    ensures UniqueIds(t + [c]) && UniqueNames(t + [c])
  {
    assert forall i :: 0 <= i < |t| ==> t[i].name != c.name && t[i].id != c.id;
  }

  /** A product just created is found by its id. */
  lemma CreatedProductIsFound(t: seq<Product>, p: Option<ProductInput>, freshId: Uuid)
    requires !Exists(t, HasId(freshId))
    requires CreateProduct(t, p, freshId).0.Ok?
    ensures var out := CreateProduct(t, p, freshId);
      GetProductById(out.1, Some(freshId)) == Ok(Some(out.0.value))
  {
    var out := CreateProduct(t, p, freshId);
    FirstWhereOfAppended(t, out.0.value, HasId(freshId));
  }

  /** `ProductService.getProductById`: a null id fails; otherwise the first row with that id, if any. */
  function GetProductById(t: seq<Product>, id: Option<Uuid>): (r: Result<Option<Product>, Error>)
    ensures id.None? <==> r == Fail(IllegalArgument(NullInput))
    ensures id.Some? ==> r.Ok?
    ensures r.Ok? ==> (r.value.Some? <==> Exists(t, HasId(id.value)))
    ensures r.Ok? && r.value.Some? ==> r.value.value in t && r.value.value.id == id.value
  {
    match id
    case None => Fail(IllegalArgument(NullInput))
    case Some(k) => Ok(FirstWhere(t, HasId(k)))
  }

  /** The product name `name` is held by a row whose id is not `id`, as the name lookup reports it. */
  predicate NameTakenByOther(t: seq<Product>, name: string, id: Uuid) {
    var found := FirstWhere(t, HasName(name));
    found.Some? && found.value.id != id
  }

  /** The category reference is null or names an existing category. */
  predicate CategoryKnown(cats: seq<Categories.Category>, category: Option<Uuid>) {
    category.None? || Exists(cats, Categories.HasId(category.value))
  }

  /** The category ids the stored products reference: the categories the foreign key keeps from deletion. */
  function LinkedCategories(t: seq<Product>): (r: set<Uuid>)
    ensures forall c :: c in r <==> exists j :: 0 <= j < |t| && t[j].category == Some(c)
  {
    set j | 0 <= j < |t| && t[j].category.Some? :: t[j].category.value
  }

  /**
   * Deleting a category with the products' references as the foreign key
   * leaves every product whose category existed pointing at a category that
   * still exists.
   */
  lemma DeleteCategoryKeepsReferences(t: seq<Product>, cats: seq<Categories.Category>, id: Option<Uuid>)
    requires forall j :: 0 <= j < |t| ==> CategoryKnown(cats, t[j].category)
    ensures var cats' := Categories.DeleteCategory(cats, LinkedCategories(t), id).1;
      forall j :: 0 <= j < |t| ==> CategoryKnown(cats', t[j].category)
  {
    var cats' := Categories.DeleteCategory(cats, LinkedCategories(t), id).1;
    forall j | 0 <= j < |t| && t[j].category.Some?
      ensures Exists(cats', Categories.HasId(t[j].category.value))
    {
      var c := t[j].category.value;
      assert c in LinkedCategories(t);
      var k :| 0 <= k < |cats| && cats[k].id == c;
      if id.Some? && id.value !in LinkedCategories(t) {
        assert cats[k] in cats';
      }
    }
  }

  /** The input passes the argument checks of `updateProduct` that need no store. */
  predicate UpdateInputValid(p: Option<ProductInput>) {
    p.Some? && p.value.id.Some? && HasUsableName(p.value) && p.value.price >= 0 && p.value.qty >= 0
  }

  /**
   * The UPDATE of `ProductDAOImpl.update`: the price and quantity of every
   * row with that id are set; name and category are columns it does not
   * write. The contract only spells out the rows; `UpdateProduct` states the
   * effect field by field.
   */
  function SetPriceAndQty(t: seq<Product>, id: Uuid, price: int, qty: int): (r: seq<Product>)
    ensures |r| == |t|
    ensures forall j :: 0 <= j < |t| ==> r[j] == if t[j].id == id then t[j].(price := price, qty := qty) else t[j]
  {
    seq(|t|, j requires 0 <= j < |t| => if t[j].id == id then t[j].(price := price, qty := qty) else t[j])
  }

  /**
   * `ProductService.updateProduct`: argument checks (null product, null id,
   * blank name, negative price or quantity), then the target must exist, the
   * normalised name may only be held by the product itself, and a non-null
   * category must exist. On success the repository's UPDATE writes the
   * submitted price and quantity to every row with that id; the stored name
   * and category stay as they were. The submitted product, its name
   * normalised, is returned.
   */
  function UpdateProduct(t: seq<Product>, cats: seq<Categories.Category>, p: Option<ProductInput>): (out: (Result<Product, Error>, seq<Product>))
    ensures out.0.Fail? ==> out.1 == t
    ensures p.None? || p.value.id.None? ==> out.0 == Fail(IllegalArgument(NullInput))
    ensures p.Some? && p.value.id.Some? && !HasUsableName(p.value) ==> out.0 == Fail(IllegalArgument(BlankName))
    ensures p.Some? && p.value.id.Some? && HasUsableName(p.value) && (p.value.price < 0 || p.value.qty < 0) ==>
      out.0 == Fail(IllegalArgument(NegativeValue))
    ensures UpdateInputValid(p) && !Exists(t, HasId(p.value.id.value)) ==> out.0 == Fail(IllegalArgument(NotFound))
    ensures UpdateInputValid(p) && Exists(t, HasId(p.value.id.value)) ==>
      (NameTakenByOther(t, Normalize(p.value.name.value), p.value.id.value) <==> out.0 == Fail(IllegalArgument(DuplicateName)))
    ensures out.0.Ok? <==>
      && UpdateInputValid(p)
      && Exists(t, HasId(p.value.id.value))
      && !NameTakenByOther(t, Normalize(p.value.name.value), p.value.id.value)
      && CategoryKnown(cats, p.value.category)
    ensures out.0.Ok? ==>
      && out.0.value == Product(p.value.id.value, Normalize(p.value.name.value), p.value.category, p.value.price, p.value.qty)
      && |out.1| == |t|
      && (forall j :: 0 <= j < |t| ==>
            out.1[j].id == t[j].id && out.1[j].name == t[j].name && out.1[j].category == t[j].category)
      && (forall j :: 0 <= j < |t| && t[j].id == out.0.value.id ==>
            out.1[j].price == p.value.price && out.1[j].qty == p.value.qty)
      && (forall j :: 0 <= j < |t| && t[j].id != out.0.value.id ==> out.1[j] == t[j])
  {
    if p.None? || p.value.id.None? then (Fail(IllegalArgument(NullInput)), t)
    else if !HasUsableName(p.value) then (Fail(IllegalArgument(BlankName)), t)
    else if p.value.price < 0 || p.value.qty < 0 then (Fail(IllegalArgument(NegativeValue)), t)
    else
      var id := p.value.id.value;
      var normalized := Normalize(p.value.name.value);
      if FirstWhere(t, HasId(id)).None? then (Fail(IllegalArgument(NotFound)), t)
      else if NameTakenByOther(t, normalized, id) then (Fail(IllegalArgument(DuplicateName)), t)
      else if p.value.category.Some? && Categories.GetCategoryById(cats, p.value.category) == Ok(None) then
        (Fail(IllegalArgument(InvalidCategory)), t)
      else
        var updated := Product(id, normalized, p.value.category, p.value.price, p.value.qty);
        (Ok(updated), SetPriceAndQty(t, id, p.value.price, p.value.qty))
  }

  /**
   * With unique names, the name check of an update rejects exactly a name
   * held by a different product: keeping one's own name is allowed.
   */
  lemma NameClashMeansOtherOwner(t: seq<Product>, name: string, id: Uuid)
    requires UniqueNames(t)
    ensures NameTakenByOther(t, name, id) <==> exists j :: 0 <= j < |t| && t[j].name == name && t[j].id != id
  {
    if j :| 0 <= j < |t| && t[j].name == name {
      FirstWhereOfOnlyMatch(t, HasName(name), j);
    }
  }

  /** An update keeps ids and names unique. */
  lemma UpdateKeepsKeysUnique(t: seq<Product>, cats: seq<Categories.Category>, p: Option<ProductInput>)
    requires UniqueIds(t) && UniqueNames(t)
    ensures UniqueIds(UpdateProduct(t, cats, p).1) && UniqueNames(UpdateProduct(t, cats, p).1)
  {
    var out := UpdateProduct(t, cats, p);
    if out.0.Ok? {
      assert forall j :: 0 <= j < |t| ==> out.1[j].id == t[j].id && out.1[j].name == t[j].name;
    }
  }

  /** `ProductService.findLowStock`: a negative threshold fails; otherwise the products with stock below it. */
  function FindLowStock(t: seq<Product>, threshold: int): (r: Result<seq<Product>, Error>)
    ensures threshold < 0 <==> r == Fail(IllegalArgument(NegativeValue))
    ensures threshold >= 0 ==> r.Ok?
    ensures r.Ok? ==> forall j :: 0 <= j < |r.value| ==> r.value[j] in t && r.value[j].qty < threshold
    ensures r.Ok? ==> forall j :: 0 <= j < |t| && t[j].qty < threshold ==> t[j] in r.value
  {
    if threshold < 0 then Fail(IllegalArgument(NegativeValue))
    else Ok(Select(t, (p: Product) => p.qty < threshold))
  }
}

=== FILE: tables.dfy ===
/**
 * A database table as the services see it through their repositories: a
 * sequence of rows in storage order. A lookup query (`findByName`,
 * `findById`) returns the first matching row, an UPDATE rewrites every
 * matching row and a DELETE drops every matching row.
 */
module Tables {
  import opened Outcomes

  /** The position of the first row satisfying `matches`, if any. */
  function IndexWhere<T>(rows: seq<T>, matches: T -> bool): (r: Option<nat>)
    ensures r.Some? ==> r.value < |rows| && matches(rows[r.value])
    ensures r.Some? ==> forall j :: 0 <= j < r.value ==> !matches(rows[j])
    ensures r.None? <==> forall j :: 0 <= j < |rows| ==> !matches(rows[j])
  {
    if rows == [] then None
    else if matches(rows[0]) then Some(0)
    else match IndexWhere(rows[1..], matches)
      case None => None
      case Some(i) => Some(i + 1)
  }

  /** The first row satisfying `matches`: what a single-row query returns. */
  function FirstWhere<T>(rows: seq<T>, matches: T -> bool): (r: Option<T>)
    ensures r.Some? <==> exists j :: 0 <= j < |rows| && matches(rows[j])
    ensures r.Some? ==> r.value in rows && matches(r.value)
  {
    match IndexWhere(rows, matches)
    case None => None
    case Some(i) => Some(rows[i])
  }

  /** The rows satisfying `keep`, in storage order (a SELECT with a WHERE clause). */
  function Select<T>(rows: seq<T>, keep: T -> bool): (r: seq<T>)
    ensures |r| <= |rows|
    ensures forall j :: 0 <= j < |r| ==> r[j] in rows && keep(r[j])
    ensures forall j :: 0 <= j < |rows| && keep(rows[j]) ==> rows[j] in r
  {
    if rows == [] then []
    else if keep(rows[0]) then [rows[0]] + Select(rows[1..], keep)
    else Select(rows[1..], keep)
  }

  /** Every row satisfying `matches` rewritten by `update`, the others kept in place (an UPDATE). */
  function UpdateWhere<T>(rows: seq<T>, matches: T -> bool, update: T -> T): (r: seq<T>)
    ensures |r| == |rows|
    ensures forall j :: 0 <= j < |rows| && matches(rows[j]) ==> r[j] == update(rows[j])
    ensures forall j :: 0 <= j < |rows| && !matches(rows[j]) ==> r[j] == rows[j]
  {
    seq(|rows|, j requires 0 <= j < |rows| => if matches(rows[j]) then update(rows[j]) else rows[j])
  }

  /** A row satisfies `matches` somewhere in the table. */
  predicate Exists<T>(rows: seq<T>, matches: T -> bool) {
    exists j :: 0 <= j < |rows| && matches(rows[j])
  }

  /** A row appended to a table with no match is the first match of the extended table. */
  lemma FirstWhereOfAppended<T>(rows: seq<T>, row: T, matches: T -> bool)
    requires !Exists(rows, matches) && matches(row)
    ensures FirstWhere(rows + [row], matches) == Some(row)
  {
    var k := IndexWhere(rows + [row], matches);
    assert (rows + [row])[|rows|] == row;
    assert k.Some?;
    assert forall j :: 0 <= j < |rows| ==> (rows + [row])[j] == rows[j];
  }

  /** When row `j` is the only match, a lookup returns it. */
  lemma FirstWhereOfOnlyMatch<T>(rows: seq<T>, matches: T -> bool, j: nat)
    requires j < |rows| && matches(rows[j])
    requires forall i :: 0 <= i < |rows| && matches(rows[i]) ==> i == j
    ensures FirstWhere(rows, matches) == Some(rows[j])
  {
    var k := IndexWhere(rows, matches);
    assert k.Some?;
  }
}

=== FILE: text.dfy ===
/**
 * The two string operations the services apply to names: Java's
 * `String.trim()` (drop every character at or below U+0020 at both ends) and
 * `String.toLowerCase()`, restricted to ASCII letters.
 */
module Text {

  /** A character `trim()` removes: any code point at or below U+0020. */
  predicate IsTrimmable(c: char) {
    c <= ' '
  }

  /** Every character of `s` is trimmable (this includes the empty string). */
  predicate AllTrimmable(s: string) {
    forall i :: 0 <= i < |s| ==> IsTrimmable(s[i])
  }

  /** The number of trimmable characters at the start of `s`. */
  function LeadingTrimmable(s: string): (n: nat)
    ensures n <= |s|
    ensures forall i :: 0 <= i < n ==> IsTrimmable(s[i])
    ensures n < |s| ==> !IsTrimmable(s[n])
  {
    if s != [] && IsTrimmable(s[0]) then 1 + LeadingTrimmable(s[1..]) else 0
  }

  /** The number of trimmable characters at the end of `s`. */
  function TrailingTrimmable(s: string): (n: nat)
    ensures n <= |s|
    ensures forall i :: |s| - n <= i < |s| ==> IsTrimmable(s[i])
    ensures n < |s| ==> !IsTrimmable(s[|s| - n - 1])
  {
    if s != [] && IsTrimmable(s[|s| - 1]) then 1 + TrailingTrimmable(s[..|s| - 1]) else 0
  }

  /**
   * Java `s.trim()`: skip the trimmable characters at the start, then those
   * at the end of what is left, and keep the part in between.
   */
  function Trim(s: string): (r: string)
    ensures r == [] <==> AllTrimmable(s)
    ensures r != [] ==> !IsTrimmable(r[0]) && !IsTrimmable(r[|r| - 1])
    ensures |r| <= |s|
    ensures exists lo, hi :: 0 <= lo <= hi <= |s| && r == s[lo..hi] && TrimmedAround(s, lo, hi)
  {
    var a := LeadingTrimmable(s);
    var t := s[a..];
    var r := t[..|t| - TrailingTrimmable(t)];
    assert r == s[a..a + |r|];
    forall i | a + |r| <= i < |s|
      ensures IsTrimmable(s[i])
    {
      assert s[i] == t[i - a];
    }
    assert TrimmedAround(s, a, a + |r|);
    r
  }

  /** Every character of `s` before position `lo` and from position `hi` on is trimmable. */
  predicate TrimmedAround(s: string, lo: int, hi: int) {
    && (forall i :: 0 <= i < lo && i < |s| ==> IsTrimmable(s[i]))
    && (forall i :: hi <= i < |s| && 0 <= i ==> IsTrimmable(s[i]))
  }

  /** Java `s.trim().isEmpty()`: by the contract of `Trim`, every character is trimmable. */
  predicate IsBlank(s: string) {
    AllTrimmable(s)
  }

  /** Java `Character.toLowerCase` on an ASCII upper-case letter; other characters are kept. */
  function LowerChar(c: char): char {
    if 'A' <= c <= 'Z' then (c as int + 32) as char else c
  }

  /** Java `s.toLowerCase()`, ASCII letters only. */
  function ToLower(s: string): (r: string)
    ensures |r| == |s|
    ensures forall i :: 0 <= i < |s| ==> r[i] == LowerChar(s[i])
  {
    seq(|s|, i requires 0 <= i < |s| => LowerChar(s[i]))
  }

  /** `s.trim().toLowerCase()`: the form in which product and category names are stored. */
  function Normalize(s: string): string {
    ToLower(Trim(s))
  }

  /** A stored name: non-empty, no trimmable character at either end, no ASCII upper case. */
  predicate IsNormalName(s: string) {
    && s != []
    && !IsTrimmable(s[0])
    && !IsTrimmable(s[|s| - 1])
    && forall i :: 0 <= i < |s| ==> !('A' <= s[i] <= 'Z')
  }

  /** Lower-casing never yields an upper-case letter and keeps trimmability. */
  lemma LowerCharFacts(c: char)
    ensures !('A' <= LowerChar(c) <= 'Z')
    ensures IsTrimmable(LowerChar(c)) == IsTrimmable(c)
  {
  }

  /** Normalising a non-blank name yields a stored-form name. */
  lemma {:induction false} NormalizeIsNormal(s: string)
    requires !IsBlank(s)
    ensures IsNormalName(Normalize(s))
  {
    var t := Trim(s);
    assert t != [];
    LowerCaseOfTrimmed(t);
    assert Normalize(s) == ToLower(t);
  }

  /** Lower-casing a trimmed, non-empty string yields a stored-form name. */
  lemma {:induction false} LowerCaseOfTrimmed(t: string)
    requires t != [] && !IsTrimmable(t[0]) && !IsTrimmable(t[|t| - 1])
    ensures IsNormalName(ToLower(t))
  {
    LowerCharFacts(t[0]);
    LowerCharFacts(t[|t| - 1]);
    ToLowerHasNoUpper(t);
  }

  /** No character of a lower-cased string is an ASCII upper-case letter. */
  lemma ToLowerHasNoUpper(t: string)
    ensures forall i :: 0 <= i < |t| ==> !('A' <= ToLower(t)[i] <= 'Z')
  {
    forall i | 0 <= i < |t|
      ensures !('A' <= ToLower(t)[i] <= 'Z')
    {
      LowerCharFacts(t[i]);
    }
  }

  /** A stored-form name is a fixed point of trimming. */
  lemma {:induction false} TrimOfNormal(s: string)
    requires s != [] && !IsTrimmable(s[0]) && !IsTrimmable(s[|s| - 1])
    ensures Trim(s) == s
  {
    assert LeadingTrimmable(s) == 0;
    assert TrailingTrimmable(s) == 0;
  }

  /** Normalisation is idempotent: a blank name normalises to the empty string, any other to a stored name. */
  lemma {:induction false} NormalizeIdempotent(s: string)
    ensures Normalize(Normalize(s)) == Normalize(s)
  {
    if IsBlank(s) {
      assert Trim(s) == [];
      assert Normalize(s) == [];
      assert Trim([]) == [];
    } else {
      NormalizeIsNormal(s);
      NormalIsFixed(Normalize(s));
    }
  }

  /** A stored-form name normalises to itself. */
  lemma {:induction false} NormalIsFixed(n: string)
    requires IsNormalName(n)
    ensures Normalize(n) == n
  {
    TrimOfNormal(n);
    assert ToLower(n) == n;
  }
}

=== FILE: users.dfy ===
/**
 * The user service: guard clauses in front of the user repository. Password
 * hashing and verification belong to a security helper whose code is not
 * part of this model; they are parameters here.
 */
module Users {
  import opened Outcomes
  import opened UuidCodec
  import opened Tables
  import opened Text

  /** A stored user; `password` holds whatever the service stored (a hash after `createUser`). */
  datatype User = User(id: Uuid, username: string, password: string, role: string)

  /** A user as submitted to the service; any field may be null. */
  datatype UserInput = UserInput(id: Option<Uuid>, username: Option<string>, password: Option<string>, role: Option<string>)

  function HasId(id: Uuid): User -> bool {
    (u: User) => u.id == id
  }

  function HasUsername(name: string): User -> bool {
    (u: User) => u.username == name
  }

  /** No two stored users share an id. */
  predicate UniqueIds(t: seq<User>) {
    forall i, j :: 0 <= i < j < |t| ==> t[i].id != t[j].id
  }

  /** No two stored users share a username. */
  predicate UniqueUsernames(t: seq<User>) {
    forall i, j :: 0 <= i < j < |t| ==> t[i].username != t[j].username
  }

  /** A field that is present and not blank after trim. */
  predicate Filled(f: Option<string>) {
    f.Some? && !IsBlank(f.value)
  }

  /** The first failing field check of `createUser` and `updateUser`, if any. */
  function FieldError(u: UserInput): Option<Error> {
    if !Filled(u.username) then Some(IllegalArgument(BlankName))
    else if !Filled(u.password) then Some(IllegalArgument(BlankPassword))
    else if !Filled(u.role) then Some(IllegalArgument(BlankRole))
    else None
  }

  /**
   * `UserService.createUser`: a null user or a blank username, password or
   * role fails; so does a username already stored (compared exactly as
   * given). Otherwise the user is stored under `freshId` with the password
   * replaced by `hash(password)`.
   */
  function CreateUser(t: seq<User>, u: Option<UserInput>, freshId: Uuid, hash: string -> string): (out: (Result<User, Error>, seq<User>))
    requires !Exists(t, HasId(freshId))
    ensures out.0.Fail? ==> out.1 == t
    ensures u.None? ==> out.0 == Fail(IllegalArgument(NullInput))
    ensures u.Some? && FieldError(u.value).Some? ==> out.0 == Fail(FieldError(u.value).value)
    ensures u.Some? && FieldError(u.value).None? ==>
      (Exists(t, HasUsername(u.value.username.value)) <==> out.0 == Fail(IllegalArgument(DuplicateName)))
    ensures out.0.Ok? <==> u.Some? && FieldError(u.value).None? && !Exists(t, HasUsername(u.value.username.value))
    ensures out.0.Ok? ==>
      && u.Some? && FieldError(u.value).None?
      && out.0.value == User(freshId, u.value.username.value, hash(u.value.password.value), u.value.role.value)
      && out.1 == t + [out.0.value]
  {
    if u.None? then (Fail(IllegalArgument(NullInput)), t)
    else if FieldError(u.value).Some? then (Fail(FieldError(u.value).value), t)
    else if FirstWhere(t, HasUsername(u.value.username.value)).Some? then (Fail(IllegalArgument(DuplicateName)), t)
    else
      var created := User(freshId, u.value.username.value, hash(u.value.password.value), u.value.role.value);
      (Ok(created), t + [created])
  }

  /** Creating a user keeps ids and usernames unique. */
  lemma {:induction false} CreateKeepsKeysUnique(t: seq<User>, u: Option<UserInput>, freshId: Uuid, hash: string -> string)
    requires !Exists(t, HasId(freshId))
    requires UniqueIds(t) && UniqueUsernames(t)
    ensures var t' := CreateUser(t, u, freshId, hash).1; UniqueIds(t') && UniqueUsernames(t')
  {
    var out := CreateUser(t, u, freshId, hash);
    if out.0.Ok? {
      var c := out.0.value;
      assert out.1 == t + [c];
      assert c.id == freshId;
      assert !Exists(t, HasUsername(c.username));
      AppendKeepsKeysUnique(t, c);
    }
  }

  /** Appending a user whose id and username are new keeps ids and usernames unique. */
  lemma AppendKeepsKeysUnique(t: seq<User>, c: User)
    requires UniqueIds(t) && UniqueUsernames(t)
    requires !Exists(t, HasId(c.id)) && !Exists(t, HasUsername(c.username))
    ensures UniqueIds(t + [c]) && UniqueUsernames(t + [c])
  {
    assert forall i :: 0 <= i < |t| ==> t[i].username != c.username && t[i].id != c.id;
  }

  /**
   * `UserService.login`: an unknown username and a wrong password fail with
   * the same error; otherwise the stored user for that username is returned.
   * A null username matches no row, so it fails the same way.
   * `verify(password, stored)` is the opaque password check.
   */
  function Login(t: seq<User>, username: Option<string>, password: Option<string>, verify: (Option<string>, string) -> bool): (r: Result<User, Error>)
    ensures r.Fail? ==> r.error == InvalidCredentials
    ensures username.None? ==> r == Fail(InvalidCredentials)
    ensures r.Ok? <==>
      (username.Some? && var found := FirstWhere(t, HasUsername(username.value)); found.Some? && verify(password, found.value.password))
    ensures r.Ok? ==> r.value in t && r.value.username == username.value
    ensures username.Some? && !Exists(t, HasUsername(username.value)) ==> r == Fail(InvalidCredentials)
  {
    match username
    case None => Fail(InvalidCredentials)
    case Some(name) =>
      match FirstWhere(t, HasUsername(name))
      case None => Fail(InvalidCredentials)
      case Some(user) => if verify(password, user.password) then Ok(user) else Fail(InvalidCredentials)
  }

  /** A user just created logs in with the password it was created with, when `verify` accepts its own hashes. */
  lemma CreatedUserCanLogIn(t: seq<User>, u: Option<UserInput>, freshId: Uuid,
                            hash: string -> string, verify: (Option<string>, string) -> bool)
    requires !Exists(t, HasId(freshId))
    requires CreateUser(t, u, freshId, hash).0.Ok?
    requires forall pw :: verify(Some(pw), hash(pw))
    ensures var out := CreateUser(t, u, freshId, hash);
      Login(out.1, u.value.username, u.value.password, verify) == Ok(out.0.value)
  {
    var out := CreateUser(t, u, freshId, hash);
    FirstWhereOfAppended(t, out.0.value, HasUsername(u.value.username.value));
  }

  /** A user just created is found by its id and by its username. */
  lemma CreatedUserIsFound(t: seq<User>, u: Option<UserInput>, freshId: Uuid, hash: string -> string)
    requires !Exists(t, HasId(freshId))
    requires CreateUser(t, u, freshId, hash).0.Ok?
    ensures var out := CreateUser(t, u, freshId, hash);
      && GetUserById(out.1, Some(freshId)) == Ok(Some(out.0.value))
      && GetUserByName(out.1, u.value.username) == Ok(Some(out.0.value))
  {
    var out := CreateUser(t, u, freshId, hash);
    FirstWhereOfAppended(t, out.0.value, HasId(freshId));
    FirstWhereOfAppended(t, out.0.value, HasUsername(u.value.username.value));
  }

  /** `UserService.getUserByName`: a null or blank name fails; otherwise the first user with that username. */
  function GetUserByName(t: seq<User>, username: Option<string>): (r: Result<Option<User>, Error>)
    ensures !Filled(username) <==> r == Fail(IllegalArgument(BlankName))
    ensures Filled(username) ==> r.Ok?
    ensures r.Ok? ==> (r.value.Some? <==> Exists(t, HasUsername(username.value)))
    ensures r.Ok? && r.value.Some? ==> r.value.value in t && r.value.value.username == username.value
  {
    if !Filled(username) then Fail(IllegalArgument(BlankName))
    else Ok(FirstWhere(t, HasUsername(username.value)))
  }

  /** `UserService.getUserById`: a null id fails; otherwise the first user with that id. */
  function GetUserById(t: seq<User>, id: Option<Uuid>): (r: Result<Option<User>, Error>)
    ensures id.None? <==> r == Fail(IllegalArgument(NullInput))
    ensures id.Some? ==> r.Ok?
    ensures r.Ok? ==> (r.value.Some? <==> Exists(t, HasId(id.value)))
    ensures r.Ok? && r.value.Some? ==> r.value.value in t && r.value.value.id == id.value
  {
    match id
    case None => Fail(IllegalArgument(NullInput))
    case Some(k) => Ok(FirstWhere(t, HasId(k)))
  }

  /** The username `name` is held by a user whose id is not `id`, as the username lookup reports it. */
  predicate UsernameTakenByOther(t: seq<User>, name: string, id: Uuid) {
    var found := FirstWhere(t, HasUsername(name));
    found.Some? && found.value.id != id
  }

  /**
   * The UPDATE of `UserDAOImpl.update`: the password and role of every row
   * with that id are set; the username is a column it does not write. The
   * contract only spells out the rows; `UpdateUser` states the effect field
   * by field.
   */
  function SetPasswordAndRole(t: seq<User>, id: Uuid, password: string, role: string): (r: seq<User>)
    ensures |r| == |t|
    ensures forall j :: 0 <= j < |t| ==> r[j] == if t[j].id == id then t[j].(password := password, role := role) else t[j]
  {
    seq(|t|, j requires 0 <= j < |t| => if t[j].id == id then t[j].(password := password, role := role) else t[j])
  }

  /**
   * `UserService.updateUser`: the field checks of `createUser`, then the id
   * must exist (a null id matches no row) and the username may only be held
   * by that same user. On success the repository's UPDATE writes the
   * submitted password, as given and not re-hashed, and role to every row
   * with that id; the stored username stays as it was. The submitted user
   * is returned.
   */
  function UpdateUser(t: seq<User>, u: Option<UserInput>): (out: (Result<User, Error>, seq<User>))
    ensures out.0.Fail? ==> out.1 == t
    ensures u.None? ==> out.0 == Fail(IllegalArgument(NullInput))
    ensures u.Some? && FieldError(u.value).Some? ==> out.0 == Fail(FieldError(u.value).value)
    ensures u.Some? && FieldError(u.value).None? && (u.value.id.None? || !Exists(t, HasId(u.value.id.value))) ==>
      out.0 == Fail(IllegalArgument(NotFound))
    ensures out.0.Ok? <==>
      && u.Some? && FieldError(u.value).None? && u.value.id.Some?
      && Exists(t, HasId(u.value.id.value))
      && !UsernameTakenByOther(t, u.value.username.value, u.value.id.value)
    ensures out.0.Ok? ==>
      && out.0.value == User(u.value.id.value, u.value.username.value, u.value.password.value, u.value.role.value)
      && |out.1| == |t|
      && (forall j :: 0 <= j < |t| ==> out.1[j].id == t[j].id && out.1[j].username == t[j].username)
      && (forall j :: 0 <= j < |t| && t[j].id == out.0.value.id ==>
            out.1[j].password == u.value.password.value && out.1[j].role == u.value.role.value)
      && (forall j :: 0 <= j < |t| && t[j].id != out.0.value.id ==> out.1[j] == t[j])
  {
    if u.None? then (Fail(IllegalArgument(NullInput)), t)
    else if FieldError(u.value).Some? then (Fail(FieldError(u.value).value), t)
    else if u.value.id.None? || FirstWhere(t, HasId(u.value.id.value)).None? then (Fail(IllegalArgument(NotFound)), t)
    else
      var id := u.value.id.value;
      if UsernameTakenByOther(t, u.value.username.value, id) then (Fail(IllegalArgument(DuplicateName)), t)
      else
        var updated := User(id, u.value.username.value, u.value.password.value, u.value.role.value);
        (Ok(updated), SetPasswordAndRole(t, id, u.value.password.value, u.value.role.value))
  }

  /**
   * With unique usernames, the username check of an update rejects exactly a
   * username held by a different user: keeping one's own is allowed.
   */
  lemma UsernameClashMeansOtherOwner(t: seq<User>, name: string, id: Uuid)
    requires UniqueUsernames(t)
    ensures UsernameTakenByOther(t, name, id) <==> exists j :: 0 <= j < |t| && t[j].username == name && t[j].id != id
  {
    if j :| 0 <= j < |t| && t[j].username == name {
      FirstWhereOfOnlyMatch(t, HasUsername(name), j);
    }
  }

  /** An update keeps ids and usernames unique. */
  lemma UpdateKeepsKeysUnique(t: seq<User>, u: Option<UserInput>)
    requires UniqueIds(t) && UniqueUsernames(t)
    ensures UniqueIds(UpdateUser(t, u).1) && UniqueUsernames(UpdateUser(t, u).1)
  {
    var out := UpdateUser(t, u);
    if out.0.Ok? {
      assert forall j :: 0 <= j < |t| ==> out.1[j].id == t[j].id && out.1[j].username == t[j].username;
    }
  }

  /**
   * `UserService.deleteUser`: a null id or one no user has fails and deletes
   * nothing; otherwise exactly the rows with that id are removed.
   */
  function DeleteUser(t: seq<User>, id: Option<Uuid>): (out: (Result<(), Error>, seq<User>))
    ensures id.None? ==> out == (Fail(IllegalArgument(NullInput)), t)
    ensures id.Some? && !Exists(t, HasId(id.value)) ==> out == (Fail(IllegalArgument(NotFound)), t)
    ensures out.0.Ok? <==> id.Some? && Exists(t, HasId(id.value))
    ensures out.0.Ok? ==> !Exists(out.1, HasId(id.value))
    ensures out.0.Ok? ==> forall j :: 0 <= j < |t| && t[j].id != id.value ==> t[j] in out.1
    ensures forall j :: 0 <= j < |out.1| ==> out.1[j] in t
  {
    match id
    case None => (Fail(IllegalArgument(NullInput)), t)
    case Some(k) =>
      if FirstWhere(t, HasId(k)).None? then (Fail(IllegalArgument(NotFound)), t)
      else (Ok(()), Select(t, (u: User) => u.id != k))
  }

  /** After a successful delete the user is not found, and deleting it again fails. */
  lemma DeletedUserIsGone(t: seq<User>, id: Uuid)
    requires DeleteUser(t, Some(id)).0.Ok?
    ensures var t' := DeleteUser(t, Some(id)).1;
      && GetUserById(t', Some(id)) == Ok(None)
      && DeleteUser(t', Some(id)) == (Fail(IllegalArgument(NotFound)), t')
  {
  }
}

=== FILE: uuid_codec.dfy ===
/**
 * The identifier codec of the persistence layer: a UUID is stored as 16 bytes,
 * its most-significant 64 bits first, each 64-bit half written big-endian
 * (the default byte order of Java's `ByteBuffer`).
 */
module UuidCodec {
  import opened Outcomes

  /** A Java `UUID`: its two 64-bit halves. */
  datatype Uuid = Uuid(msb: bv64, lsb: bv64)

  /** The low eight bits of `x`. */
  function Low8(x: bv64): bv8 {
    (x & 0xFF) as bv8
  }

  /** `ByteBuffer.putLong`: the eight bytes of `x`, most significant first. */
  function LongToBytes(x: bv64): (r: seq<bv8>)
    ensures |r| == 8
  {
    [Low8(x >> 56), Low8(x >> 48), Low8(x >> 40), Low8(x >> 32),
     Low8(x >> 24), Low8(x >> 16), Low8(x >> 8), Low8(x)]
  }

  /** `ByteBuffer.getLong` at offset `at`: eight bytes read as a big-endian 64-bit value. */
  function BytesToLong(b: seq<bv8>, at: nat): bv64
    requires at + 8 <= |b|
  {
    Pack(b[at], b[at + 1], b[at + 2], b[at + 3], b[at + 4], b[at + 5], b[at + 6], b[at + 7])
  }

  /** Eight bytes, most significant first, as one 64-bit value. */
  function Pack(b0: bv8, b1: bv8, b2: bv8, b3: bv8, b4: bv8, b5: bv8, b6: bv8, b7: bv8): bv64 {
    (b0 as bv64 << 56) | (b1 as bv64 << 48) | (b2 as bv64 << 40) | (b3 as bv64 << 32)
    | (b4 as bv64 << 24) | (b5 as bv64 << 16) | (b6 as bv64 << 8) | (b7 as bv64)
  }

  /** Each byte packed into a 64-bit value can be shifted back out. */
  lemma UnpackPack(b0: bv8, b1: bv8, b2: bv8, b3: bv8, b4: bv8, b5: bv8, b6: bv8, b7: bv8)
    ensures LongToBytes(Pack(b0, b1, b2, b3, b4, b5, b6, b7)) == [b0, b1, b2, b3, b4, b5, b6, b7]
  {
    UnpackHigh(b0, b1, b2, b3, b4, b5, b6, b7);
    UnpackLow(b0, b1, b2, b3, b4, b5, b6, b7);
  }

  /** The four most significant bytes of a packed value. */
  lemma UnpackHigh(b0: bv8, b1: bv8, b2: bv8, b3: bv8, b4: bv8, b5: bv8, b6: bv8, b7: bv8)
    ensures var x := Pack(b0, b1, b2, b3, b4, b5, b6, b7);
      Low8(x >> 56) == b0 && Low8(x >> 48) == b1 && Low8(x >> 40) == b2 && Low8(x >> 32) == b3
  {
  }

  /** The four least significant bytes of a packed value. */
  lemma UnpackLow(b0: bv8, b1: bv8, b2: bv8, b3: bv8, b4: bv8, b5: bv8, b6: bv8, b7: bv8)
    ensures var x := Pack(b0, b1, b2, b3, b4, b5, b6, b7);
      Low8(x >> 24) == b4 && Low8(x >> 16) == b5 && Low8(x >> 8) == b6 && Low8(x) == b7
  {
  }

  /** Reading back eight written bytes gives the original value. */
  lemma LongRoundTrip(x: bv64)
    ensures BytesToLong(LongToBytes(x), 0) == x
  {
  }

  /** Writing a value read from eight bytes reproduces those bytes. */
  lemma BytesRoundTrip(b: seq<bv8>, at: nat)
    requires at + 8 <= |b|
    ensures LongToBytes(BytesToLong(b, at)) == b[at..at + 8]
  {
    UnpackPack(b[at], b[at + 1], b[at + 2], b[at + 3], b[at + 4], b[at + 5], b[at + 6], b[at + 7]);
  }

  /**
   * `DaoUtil.uuidToBytes`: null stays null; otherwise sixteen bytes, the
   * most-significant half big-endian in bytes 0-7 and the least-significant
   * half in bytes 8-15.
   */
  function UuidToBytes(u: Option<Uuid>): (r: Option<seq<bv8>>)
    ensures r.Some? <==> u.Some?
    ensures r.Some? ==> |r.value| == 16
    ensures r.Some? ==> BytesToLong(r.value, 0) == u.value.msb && BytesToLong(r.value, 8) == u.value.lsb
  {
    match u
    case None => None
    case Some(id) =>
      var b := LongToBytes(id.msb) + LongToBytes(id.lsb);
      LongRoundTrip(id.msb);
      LongRoundTrip(id.lsb);
      assert b[..8] == LongToBytes(id.msb);
      assert b[8..] == LongToBytes(id.lsb);
      ReadLongOfSlice(b, 8);
      Some(b)
  }

  /** Reading at offset `at` only looks at the eight bytes there. */
  lemma ReadLongOfSlice(b: seq<bv8>, at: nat)
    requires at + 8 <= |b|
    ensures BytesToLong(b, at) == BytesToLong(b[at..at + 8], 0)
  {
  }

  /**
   * `DaoUtil.bytesToUUID`: null for a null array or one shorter than sixteen
   * bytes; otherwise the UUID whose halves are the first two big-endian longs.
   */
  function BytesToUuid(b: Option<seq<bv8>>): (r: Option<Uuid>)
    ensures r.Some? <==> b.Some? && |b.value| >= 16
    ensures r.Some? ==> r.value == Uuid(BytesToLong(b.value, 0), BytesToLong(b.value, 8))
  {
    match b
    case None => None
    case Some(bytes) =>
      if |bytes| < 16 then None
      else Some(Uuid(BytesToLong(bytes, 0), BytesToLong(bytes, 8)))
  }

  /** Every UUID survives encoding then decoding. */
  lemma UuidRoundTrip(u: Uuid)
    ensures BytesToUuid(UuidToBytes(Some(u))) == Some(u)
  {
  }

  /** Every sixteen-byte array survives decoding then encoding. */
  lemma BytesUuidRoundTrip(b: seq<bv8>)
    requires |b| == 16
    ensures UuidToBytes(BytesToUuid(Some(b))) == Some(b)
  {
    BytesRoundTrip(b, 0);
    BytesRoundTrip(b, 8);
    assert b == b[0..8] + b[8..16];
  }

  /** Decoding depends only on the first sixteen bytes: trailing bytes are ignored. */
  lemma DecodeIgnoresTrailing(b: seq<bv8>, extra: seq<bv8>)
    requires |b| >= 16
    ensures BytesToUuid(Some(b + extra)) == BytesToUuid(Some(b[..16]))
  {
    ReadLongOfSlice(b + extra, 0);
    ReadLongOfSlice(b[..16], 0);
    ReadLongOfSlice(b + extra, 8);
    ReadLongOfSlice(b[..16], 8);
    assert (b + extra)[0..8] == b[..16][0..8];
    assert (b + extra)[8..16] == b[..16][8..16];
  }
}
